=== FILE: README.md ===
# Voice agent chat core in Dafny

This project models the conversational logic of the voice assistant's
backend (`app.py`) and proves properties of it. The logic covered is:

- the in-memory session store, with its twelve-turn history window;
- the text utilities `_normalize`, `_clean_answer`, `_debloat` and `_shorten`;
- the intent classifiers: time questions, greetings, movie requests,
  follow-ups about the last recommendation, and the preference pattern;
- the `/chat` handler, written as a pure step function over the store.

Everything the handler takes from outside becomes an `Oracle` parameter:

- the clock (hour and minute);
- the two `random.choice` picks;
- the language model's generated text;
- the fresh session id.

Modules, one per file, follow the structure of the handler:

| file | module | what it holds |
|---|---|---|
| `chars.dfy` | `Chars` | ASCII character classes (`\w`, `\s`) and lower-casing |
| `text.dfy` | `Text` | `strip`, `split()` as maximal runs, `" ".join`, substring search, and their lemmas |
| `patterns.dfy` | `Patterns` | regex building blocks: `\b`, case-insensitive literals, `.*`, `\s*` |
| `phrases.dfy` | `Phrases` | padded phrase search versus contiguous word sublists |
| `normalize.dfy` | `Normalization` | `_normalize` and its characterisation by word tokens |
| `intents.dfy` | `Intents` | the classifiers and the preference pattern |
| `clean.dfy` | `Cleaning` | `_clean_answer` |
| `debloat.dfy` | `Debloating` | `_debloat` |
| `shorten.dfy` | `Shortening` | `_shorten` |
| `fallback.dfy` | `Fallback` | post-processing of the model output in the default branch |
| `sessions.dfy` | `Sessions` | `_get_session`, `_push_history`, the store |
| `chat.dfy` | `Chat` | routing, the fixed replies, small talk, the repetition guard, the step function |

Regular expressions are modelled by what a successful match means. For
example, `_refers_previous_movie` holds when positions exist for "why", a
choice verb, a demonstrative and "movie", with the gaps the pattern allows
between them. Keyword patterns are related to word tokens by lemmas.

Three behaviours of the code are worth pointing out, because a reader could
easily expect otherwise:

- The comment at app.py:283 speaks of the "last user message", but the
  small-talk override reads the newest user turn. That turn is the message
  of the current request, which the handler pushed at line 215, not the
  previous message (`Chat.SmallTalkSeesCurrentMessage`).
- The `"how are you"` rule of `_is_greeting` (lines 132-133) can never
  fire. "how" and "are" are both interrogatives, so line 130 already
  returned false (`Intents.HowAreYouIsNotGreeting`).
- The reply of the default branch can be empty. `"Got it."` replaces only
  an empty cleaning result, and `_debloat` runs afterwards
  (`Fallback.FallbackCanBeEmpty`).

## Model

| member | source | states |
|---|---|---|
| Sessions.GetSession | app.py:68-72 | A known, non-empty id returns its session and leaves the store unchanged. Otherwise a fresh empty session is stored under the new id. No other entry changes. |
| Sessions.GetSessionAgain | app.py:68-72 | Looking up the id just handed out finds the same session and changes nothing. |
| Sessions.PushHistory | app.py:74-77 | The new turn becomes the last entry. The stored recommendation is kept. Below the limit, the turn is simply appended. The history never exceeds twelve turns. |
| Sessions.PushIsWindow | app.py:74-77 | After a push, the history is the newest twelve entries of old history plus the new turn, in order, so it never exceeds twelve. |
| Sessions.LastNAppend | app.py:75-77 | Windowing, appending and windowing again equals one window over the whole sequence. |
| Sessions.PushTwice | app.py:74-77 | Two pushes keep the newest twelve of the old history followed by both turns. |
| Normalization.NormalizeIsJoinOfTokens | app.py:97-101 | `_normalize` is the text's lower-cased word runs joined by single spaces. |
| Normalization.WordRunsKeepTokens | app.py:99 | Replacing non-word runs by a space keeps the word runs. |
| Normalization.WordRunsAreSingleSpaced | app.py:99 | After the first substitution, only word characters and single spaces remain. |
| Normalization.CollapseIsIdentity | app.py:100 | Collapsing whitespace does nothing to single-spaced text. |
| Normalization.NormalizeIsCanonical | app.py:97-101 | The output is lower-case word characters separated by single spaces, with no space at either end. |
| Normalization.NormalizeEmpty | app.py:97-101 | The output is empty exactly when the input has no word character, so blank input gives "". |
| Normalization.NormalizeIdempotent | app.py:97-101 | Normalising twice equals normalising once. |
| Normalization.CanonicalTokens | app.py:97-101 | Canonical text is its own normal form, and its tokens are its word runs. |
| Normalization.SplitNormalize | app.py:126-127 | `_normalize(s).split()` is the list of the text's lower-cased word runs. |
| Normalization.StripLower | app.py:123 | Stripping and lower-casing commute. |
| Normalization.TokensOfStripLower | app.py:123-127 | Stripping and lower-casing before normalising changes no token. |
| Phrases.PaddedContains | app.py:113-114 | `" k "` occurs in `" " + t + " "` exactly when k's words occur contiguously and in order among t's words. |
| Phrases.PaddedPrefix | app.py:113-114 | One padded word list starts another exactly when the words do. |
| Intents.TimeQuestionByWords | app.py:111-114 | A message is a time question exactly when some keyphrase's words occur contiguously among its words. |
| Intents.TimeQuestionOfNormalized | app.py:111-114 | The time test depends only on the normalised text. |
| Intents.WhatTimeIsIt | app.py:103-114 | "What time is it?" is a time question. |
| Intents.GreetingByWords | app.py:122-134 | A greeting is exactly: no `?`, one to three tokens, no interrogative or auxiliary token, and a first token in the greeting set. |
| Intents.QuestionIsNotGreeting | app.py:123-125 | Any `?` rules a greeting out. |
| Intents.HowAreYouIsNotGreeting | app.py:130-133 | "how are you" is rejected at line 130, so the rule at line 132 never decides. |
| Intents.HiIsGreeting | app.py:122-134 | "Hi" is a greeting. |
| Intents.WordAtToken | app.py:136 | For an all-word keyword, `\bK\b` matches case-insensitively somewhere exactly when K is one of the lower-cased word runs. |
| Intents.MovieIntentByWords | app.py:136-140 | A movie request is exactly a text one of whose words is a movie keyword. |
| Intents.AnyGoodMovie | app.py:136-140 | "Any good movie?" is a movie request. |
| Intents.FilmsIsNotMovieIntent | app.py:136-140 | "I like films" is not: the boundary rules out "films". |
| Intents.RefersNeedsWhyAndMovie | app.py:137-143 | A follow-up reference contains "why" and, later, "movie", in any case. |
| Intents.WhyPickThatMovieRefers | app.py:137-143 | "Why did you pick that movie?" refers to the previous movie. |
| Intents.WhyThatMovieRefers | app.py:137-143 | "why that movie" refers to the previous movie. |
| Intents.PreferenceByWords | app.py:242 | The preference pattern matches exactly when "favorite" or "favourite" is a word, or `what.?do.?you.?like` matches with boundaries. |
| Intents.WhatDoYouLike | app.py:242 | "What do you like?" asks for a preference. |
| Cleaning.CleanAnswer | app.py:145-149 | The result holds only word characters, whitespace and `.,!?'-:()`, with no whitespace at either end. It only deletes characters: the result is the input with some characters removed and the rest in their original order, and so uses no character more often than the input does. What is kept is stated by CleanKeeps. |
| Cleaning.Unwrap | app.py:146 | Unwrapping only deletes characters: the result is the input with some characters removed, the rest in order, and uses no character more often than the input does. What is kept is stated by UnwrapKeeps. |
| Cleaning.HashtagsMultiset | app.py:147 | Removing hashtags uses no character more often than the input does. |
| Cleaning.HashtagsSubseq | app.py:147 | Removing hashtags only deletes characters: what is left keeps its order. |
| Cleaning.HashtagsKeep | app.py:147 | Removing hashtags deletes only `#` and word characters: every other character keeps its count. |
| Cleaning.HashtagsRemoved | app.py:147 | No `#` followed by a word character survives the removal. |
| Cleaning.Tidy | app.py:147-148 | Only allowed characters remain, and text that is already allowed is unchanged. Otherwise characters are only deleted, the rest kept in order. What is kept is stated by TidyKeeps. |
| Cleaning.TidyKeeps | app.py:147-148 | Tidying deletes only hashtags and characters outside the allow-list. Every allowed character that is not a word character keeps its count. In text without `#`, allowed characters keep their count and the others vanish. |
| Cleaning.UnwrapKeeps | app.py:146 | Unwrapping deletes only whitespace, straight and curly double quotes, and colons: every other character keeps its count. |
| Cleaning.CleanKeeps | app.py:145-149 | Cleaning keeps every allowed character other than whitespace and the colon. Its whole count survives, except that word characters can be lost inside a hashtag; in text without `#` every word character survives too. |
| Cleaning.CleanKeepsPunctuation | app.py:145-149 | Every `.`, `,`, `!`, `?`, `'`, `-`, `(` and `)` of the raw output is still in the cleaned answer. |
| Cleaning.CleanBlank | app.py:145-149 | Whitespace-only input cleans to "". |
| Cleaning.UnwrapClean | app.py:146 | Unwrapping leaves clean text that has no leading colon unchanged. |
| Cleaning.CleanFixedPoint | app.py:145-149 | Clean text without a leading colon is a fixed point of cleaning. |
| Cleaning.CleanIdempotent | app.py:145-149 | Cleaning twice equals cleaning once, unless the first pass leaves a colon in front. |
| Cleaning.CleanIgnoresLeadingSpace | app.py:146 | A leading whitespace character does not change the result. |
| Debloating.PhraseLengthMatches | app.py:152-153 | The alternative the regex commits to matches at the front, and one is found exactly when some alternative matches. |
| Debloating.ScrubMultiset | app.py:155-156 | Each substitution uses no character more often than the input does. |
| Debloating.ScrubSubseq | app.py:155-156 | Each substitution only deletes characters: what is left keeps its order. |
| Debloating.ScrubNoMatch | app.py:155-156 | With no match anywhere, the substitution returns the text unchanged. |
| Debloating.ClauseMatchEnds | app.py:152-153 | A disclaimer clause at the front is matched exactly up to the end of its clause. |
| Debloating.ScrubDropsClause | app.py:152-155 | A whole disclaimer clause at the front is deleted, and the scan continues as if it had never been there. |
| Debloating.Debloat | app.py:154-157 | The result neither starts nor ends with space, comma, period or hyphen. It only deletes characters: the result is the input with some characters removed, the rest in order, and uses no character more often than the input does. |
| Debloating.DebloatNoDisclaimer | app.py:154-157 | Text without any disclaimer is only trimmed. |
| Debloating.DebloatDropsDisclaimer | app.py:152-157 | A reply that opens with an "As an AI ..." clause loses exactly that clause. |
| Shortening.NextBreak | app.py:19 | The first sentence break at or after a position: every position before it is not a break. |
| Shortening.SentencesHaveNoBreak | app.py:19-24 | No sentence contains a break. |
| Shortening.JoinSentences | app.py:19-25 | When every break is a single space, joining the sentences gives the text back. |
| Shortening.JoinLeadingSentences | app.py:24-25 | The first n sentences, joined, form a prefix of the text. |
| Shortening.Shorten | app.py:20-28 | The length is at most max_chars + 3. A result longer than max_chars ends in "...". Blank input gives "". |
| Shortening.ShortenIsPrefix | app.py:20-28 | For a text that is already stripped and whose sentence breaks are single spaces, with any sentence budget: the result is a prefix of the text, or a prefix of at most max_chars characters followed by "...". |
| Shortening.ShortenOneSentence | app.py:20-28 | With a sentence budget of at most one, as the handler passes at line 281, for any text: the result is a prefix of the stripped text, or a prefix of at most max_chars characters followed by "...". |
| Shortening.CutPrefix | app.py:26-27 | Applying the character budget to a prefix of a text gives a prefix of it, or a prefix of at most max_chars characters followed by "...". |
| Shortening.ShortenWithinBudget | app.py:20-28 | Text already within both budgets, stripped and single-spaced, comes back unchanged. |
| Fallback.FindFrom | app.py:277 | Finds the first occurrence of the marker at or after a position. |
| Fallback.AfterMarker | app.py:277 | The kept text is a suffix of the model output. |
| Fallback.AfterMarkerSplits | app.py:277 | The output is everything before the first marker, the marker, then the kept text. Without a marker, the whole output is kept. |
| Fallback.FirstRole | app.py:278 | Finds the first position where a role word starts. |
| Fallback.CutAtRole | app.py:278 | The cut keeps a prefix of the text. |
| Fallback.CutAtLeftmostMatch | app.py:278 | The cut falls exactly where the leftmost match of the split pattern starts. |
| Fallback.CutWithoutRole | app.py:278 | Text without a role word is kept whole. |
| Fallback.CutLeavesNoRole | app.py:278 | No role word is left after the cut. |
| Fallback.FallbackAnswer | app.py:277-281 | The post-processed reply has at most 93 characters. |
| Fallback.FallbackWhenNothingLeft | app.py:279-281 | When cleaning leaves nothing, the reply is "Got it" (the trim removes the period of "Got it."). |
| Fallback.FallbackCanBeEmpty | app.py:277-281 | "Assistant: As an AI." yields an empty reply. |
| Chat.TimeReply | app.py:222-223 | The time reply has a fixed length of 26. |
| Chat.TimeReplyReadsBack | app.py:222-223 | The time reply begins "The current time is ", and its zero-padded digits read back as the hour and the minute. |
| Chat.FollowUpQuotesTitle | app.py:233-236 | The follow-up reply contains the stored title between curly quotes. |
| Chat.RouteIsFirstApplicable | app.py:217-252 | The chosen branch applies, and no branch earlier in the order time, greeting, follow-up, preference, movie applies. |
| Chat.LastTextOf | app.py:284-303 | The newest turn of a role is found exactly when one exists, and it is the latest turn of that role. |
| Chat.SmallTalk | app.py:284-296 | The answer is kept or replaced by one of the three small-talk lines. |
| Chat.SmallTalkFires | app.py:284-296 | When the newest user turn, lower-cased and stripped, contains a small-talk phrase, the answer becomes the chosen small-talk line. |
| Chat.SmallTalkKeeps | app.py:284-296 | When there is no user turn, or the newest one contains no small-talk phrase, the answer is kept. |
| Chat.NothingIsNotSmallTalk | app.py:285-291 | An empty message (the value used when no user turn is found) contains no small-talk phrase. |
| Chat.SmallTalkSeesCurrentMessage | app.py:284-289 | After the user turn is pushed, the newest user turn is the current message. |
| Chat.Guard | app.py:298-305 | The answer is kept or replaced by "Sure—what else can I help with?". |
| Chat.GuardKeeps | app.py:298-305 | With no earlier assistant turn, a blank one, or an answer that differs from it beyond case and surrounding whitespace, the answer is kept. |
| Chat.GuardReplaces | app.py:298-305 | An answer equal to the non-blank previous assistant turn, ignoring case and surrounding whitespace, becomes "Sure—what else can I help with?". |
| Chat.GuardRepeatsItself | app.py:298-305 | After a "Sure—what else can I help with?" turn, an answer equal to it comes out as that same line again: the guard does not prevent repeating its own replacement. |
| Chat.GuardAvoidsRepeat | app.py:298-305 | When the previous assistant turn is non-blank and is not the guard's own replacement line, the reply after the guard never equals that turn, ignoring case and surrounding whitespace. |
| Chat.ModelAnswerBounded | app.py:277-305 | The default branch answers with the post-processed model text, a small-talk line or the repetition reply, and never more than 93 characters. |
| Chat.Answer | app.py:221-252 | Only the movie branch changes the recommendation, and it sets it to the picked title. |
| Chat.Respond | app.py:213-308 | The history becomes the newest twelve of old history plus the user turn and the reply. The recommendation changes only in the movie branch. |
| Chat.RespondReply | app.py:215-252 | The reply is the routed branch's answer, computed with the message already pushed. |
| Chat.RespondFollowUp | app.py:232-239 | The follow-up branch answers from the stored title. |
| Chat.RespondSmallTalk | app.py:283-305 | In the default branch, a message containing a small-talk phrase is answered with the chosen small-talk line, passed through the repetition guard. |
| Chat.RespondKeepsOk | app.py:213-308 | A turn keeps the session within the history limit and keeps the recommendation a title from the pool. |
| Chat.Chat | app.py:213-308 | The reply names the request's session: the known id, or the fresh one. The store gains at most that id, and every other session is untouched. |
| Chat.ChatHistory | app.py:213-308 | Each completed request adds the stripped message and then the reply to its session, keeping the newest twelve turns. |
| Chat.ChatReco | app.py:247-252 | Only the movie branch writes the recommendation, and it writes the picked title. |
| Chat.ChatAnswersTime | app.py:217-225 | A time question is answered with the time, whatever else it says. |
| Chat.ChatFollowUpQuotes | app.py:232-239 | A follow-up is answered by quoting the title recommended earlier in the same session. |
| Chat.ChatSmallTalk | app.py:283-305 | A request that reaches the default branch with a small-talk phrase in its message is answered with the chosen small-talk line, or with the repetition reply. |
| Chat.WhatTimeIsItAnswered | app.py:213-225 | "What time is it?" gets the time reply. |
| Chat.ChatKeepsStoreOk | app.py:213-308 | Every session in the store stays within the history limit and remembers only a title from the pool. |
| Chat.Converse | app.py:64-72 | No session is ever removed from the store. |
| Chat.ConverseKeepsStoreOk | app.py:207-308 | Over any sequence of completed requests, every session stays within the history limit and remembers only a title from the pool. |

## Left out

- HTTP plumbing (FastAPI app, CORS, `/ping`, `/asr`, `/tts`, `ChatBody`): transport, not logic.
- Speech recognition, the language model and speech synthesis (`modules/asr.py`, `modules/llm.py`, `modules/tts.py`) and the browser client: opaque foreign code. The model's output enters as the oracle's `modelOutput`.
- Prompt construction (app.py:254-275): its only effect is the model output, which is a parameter.
- A failed model call: when the pipeline raises at app.py:268-275, the request ends with an error. The user turn pushed at app.py:215 then stays in the store without a reply, and so does a session created at app.py:69-71. The model treats the model output as always available, so `Chat.ChatHistory` and `Chat.ConverseKeepsStoreOk` speak only of requests that complete. The invariant those lemmas keep (at most twelve turns, only pool titles remembered) would survive such a request too, but the model does not state it.
- `datetime.now`, `random.choice` and `uuid.uuid4`: these are oracle fields. The oracle is constrained to a valid hour and minute, in-range picks, and a 12-hex-digit id.
- `_history_to_prompt` (app.py:79-93) and `_extract_movie_title` (app.py:159-166): never reached from the handler, because the history block is hard-coded to "".
- Concurrency on the shared `sessions` dictionary: the model is one sequential caller.
- Full Unicode: `\w`, `\s` and `lower()` are modelled on ASCII only. Other characters are neither word characters nor whitespace, and are unchanged by case mapping.
- `None` inputs and the `or ""` guards: strings here are never `None`.
- The lazy loading of the model pipeline at app.py:209-211: it has no effect on the reply logic.
- Shortening.Shorten: `max_chars` and `max_sentences` are natural numbers. Python's negative slice bounds are not modelled, and the handler only passes 1 and 90.
- Intents.RefersNeedsWhyAndMovie: states a necessary condition only. The exact match set is the predicate `RefersPreviousMovie` itself, and the two examples show it is met.
- Chat.Converse: only key preservation is stated on the function. Session contents are covered by ConverseKeepsStoreOk.

=== FILE: chars.dfy ===
/** Character classes used by the assistant's text processing.

    Python's `str` methods and `re` classes are Unicode-aware; this model
    restricts them to ASCII: `\w` is `[A-Za-z0-9_]`, whitespace is what
    `str.isspace` accepts below code point 128, and `lower()` maps only `A-Z`.
    Every other character is neither a word character nor whitespace and is
    left unchanged by case mapping.
 */
module Chars {

  /** Whitespace in the sense of `str.strip()` and the regex class `\s`:
      tab, line feed, vertical tab, form feed, carriage return, the four
      information separators 0x1C-0x1F, and space. */
  predicate IsSpace(c: char) {
    c == ' ' || ('\t' <= c <= '\r') || ('\U{1C}' <= c <= '\U{1F}')
  }

  predicate NotSpace(c: char) {
    !IsSpace(c)
  }

  /** The regex class `\w`. */
  predicate IsWord(c: char) {
    ('a' <= c <= 'z') || ('A' <= c <= 'Z') || ('0' <= c <= '9') || c == '_'
  }

  /** The regex class `[^\w]`. */
  predicate NotWord(c: char) {
    !IsWord(c)
  }

  predicate IsUpper(c: char) {
    'A' <= c <= 'Z'
  }

  predicate IsDigit(c: char) {
    '0' <= c <= '9'
  }

  /** `c.lower()` */
  function Lower(c: char): (r: char)
    ensures !IsUpper(r)
    ensures IsWord(r) <==> IsWord(c)
    ensures IsSpace(r) <==> IsSpace(c)
    ensures !IsUpper(c) ==> r == c
    ensures IsUpper(c) ==> 'a' <= r <= 'z' && r as int == c as int + 32
  {
    if IsUpper(c) then (c as int + 32) as char else c
  }

  /** `s.lower()` */
  function LowerStr(s: string): (r: string)
    ensures |r| == |s|
    ensures forall i :: 0 <= i < |s| ==> r[i] == Lower(s[i])
  {
    seq(|s|, i requires 0 <= i < |s| => Lower(s[i]))
  }

  lemma LowerStrIdempotent(s: string)
    ensures LowerStr(LowerStr(s)) == LowerStr(s)
  {
  }

  lemma LowerStrSlice(s: string, i: int, j: int)
    requires 0 <= i <= j <= |s|
    ensures LowerStr(s[i..j]) == LowerStr(s)[i..j]
  {
  }

  /** Case-insensitive equality of two strings as `re.IGNORECASE` decides it
      for ASCII. */
  predicate EqualsIgnoreCase(a: string, b: string) {
    LowerStr(a) == LowerStr(b)
  }
}

=== FILE: chat.dfy ===
/** The `/chat` handler as a pure step function.

    One call takes the session store, the client's optional session id and
    message, and an `Oracle` that stands for everything the handler draws
    from outside: the wall clock, the two random choices, the language
    model's output and the UUID of a new session. It returns the new store,
    the reply text and the session id, as the handler's JSON response does.
 */
module Chat {
  import opened Chars
  import opened Text
  import opened Intents
  import opened Fallback
  import opened Sessions

  /** The static movie pool: title and blurb. */
  const MovieRecs: seq<(string, string)> := [
    ("The Shawshank Redemption", "an inspiring drama about hope and friendship"),
    ("Inception", "a mind-bending sci-fi thriller with stunning visuals"),
    ("La La Land", "a warm musical about love, dreams, and second chances"),
    ("Spider-Man: Into the Spider-Verse", "a fun, stylish animated adventure"),
    ("Knives Out", "a clever, modern whodunit with sharp humor")
  ]

  const GreetingReply: string := "Hi! I'm good — how can I help?"

  const PreferenceReply: string :=
    "I don’t have personal tastes, but sushi and pizza are among the most popular foods worldwide. What about you?"

  /** Replaces a reply that would repeat the previous one. */
  const RepeatReply: string := "Sure—what else can I help with?"

  /** Substrings of the lower-cased message that trigger a small-talk reply. */
  const SmallTalkPhrases: seq<string> := [
    "how are you", "how’s it going", "how do you do", "what’s up", "how have you been"
  ]

  const SmallTalkReplies: seq<string> := [
    "I'm doing great, thanks for asking! How about you?",
    "I'm feeling good today and ready to chat — how are you doing?",
    "Pretty good! Always happy to talk with you."
  ]

  /** What the handler takes from the world: `datetime.now()` as hour and
      minute, the index `random.choice` draws from the movie pool and from
      the small-talk replies, the model's `generated_text`, and the id a new
      session gets. */
  datatype Oracle = Oracle(
    hour: nat, minute: nat,
    moviePick: nat, smallTalkPick: nat,
    modelOutput: string,
    freshId: string)

  predicate ValidOracle(o: Oracle) {
    && o.hour < 24 && o.minute < 60
    && o.moviePick < |MovieRecs| && o.smallTalkPick < |SmallTalkReplies|
    && IsGeneratedId(o.freshId)
  }

  // ---------------------------------------------------------------------
  // Replies

  function DigitChar(d: nat): (c: char)
    requires d < 10
    ensures IsDigit(c)
  {
    ('0' as int + d) as char
  }

  /** `%H` / `%M`: two decimal digits, zero-padded. */
  function TwoDigits(n: nat): (r: string)
    requires n < 100
    ensures |r| == 2 && IsDigit(r[0]) && IsDigit(r[1])
  {
    [DigitChar(n / 10), DigitChar(n % 10)]
  }

  function DigitValue(c: char): int {
    c as int - '0' as int
  }

  /** Reading two digits back. */
  function ParseTwoDigits(s: string): int
    requires |s| == 2
  {
    10 * DigitValue(s[0]) + DigitValue(s[1])
  }

  /** `f"The current time is {now}."` with `now` formatted as `%H:%M`. */
  function TimeReply(hour: nat, minute: nat): (r: string)
    requires hour < 24 && minute < 60
    ensures |r| == 26
  {
    "The current time is " + TwoDigits(hour) + ":" + TwoDigits(minute) + "."
  }

  /** The time reply can be read back: the clock digits sit at fixed
      positions and give back the hour and the minute. */
  lemma {:induction false} TimeReplyReadsBack(hour: nat, minute: nat)
    requires hour < 24 && minute < 60
    ensures var r := TimeReply(hour, minute);
      && IsPrefix("The current time is ", r)
      && r[22] == ':' && r[25] == '.'
      && ParseTwoDigits(r[20..22]) == hour
      && ParseTwoDigits(r[23..25]) == minute
  {
    var r := TimeReply(hour, minute);
    TwoDigitsRoundTrip(hour);
    TwoDigitsRoundTrip(minute);
    assert r[20..22] == TwoDigits(hour);
    assert r[23..25] == TwoDigits(minute);
  }

  lemma TwoDigitsRoundTrip(n: nat)
    requires n < 100
    ensures ParseTwoDigits(TwoDigits(n)) == n
  {
  }

  const FollowUpLead: string := "I suggested "

  const FollowUpBlurb: string :=
    " because it’s widely praised for its storytelling and emotional impact. It’s an easy, high-quality pick for most moods."

  /** The explanation of the last recommendation. */
  function FollowUpReply(title: string): string {
    FollowUpLead + "“" + title + "”" + FollowUpBlurb
  }

  /** The follow-up reply quotes the stored title between curly quotes. */
  lemma FollowUpQuotesTitle(title: string)
    ensures OccursAt(FollowUpReply(title), |FollowUpLead|, "“" + title + "”")
    ensures OccursAt(FollowUpReply(title), |FollowUpLead| + 1, title)
  {
    QuotedIn(FollowUpLead, title, FollowUpBlurb);
  }

  lemma QuotedIn(lead: string, title: string, tail: string)
    ensures OccursAt(lead + "“" + title + "”" + tail, |lead|, "“" + title + "”")
    ensures OccursAt(lead + "“" + title + "”" + tail, |lead| + 1, title)
  {
    var r := lead + "“" + title + "”" + tail;
    var q := "“" + title + "”";
    assert r == lead + q + tail;
    assert r[|lead|..|lead| + |q|] == q;
    assert q[1..1 + |title|] == title;
    assert r[|lead| + 1..|lead| + 1 + |title|] == q[1..1 + |title|];
  }

  /** `f'Try "{title}" — {blurb}.'` */
  function MovieReply(title: string, blurb: string): string {
    "Try \"" + title + "\" — " + blurb + "."
  }

  // ---------------------------------------------------------------------
  // Routing

  /** The stored recommendation counts only when set and non-empty, as
      Python's truthiness decides. */
  predicate HasReco(reco: Option<string>) {
    reco.Some? && reco.value != ""
  }

  datatype Branch = TimeBranch | GreetingBranch | FollowUpBranch | PreferenceBranch | MovieBranch | ModelBranch

  /** Which branch of the handler answers `text`. */
  function Route(text: string, reco: Option<string>): Branch {
    if IsTimeQuestion(text) then TimeBranch
    else if IsGreeting(text) then GreetingBranch
    else if RefersPreviousMovie(text) && HasReco(reco) then FollowUpBranch
    else if AsksPreference(text) then PreferenceBranch
    else if IsMovieIntent(text) then MovieBranch
    else ModelBranch
  }

  /** The condition under which each branch is willing to answer. */
  predicate Applies(b: Branch, text: string, reco: Option<string>) {
    match b
    case TimeBranch => IsTimeQuestion(text)
    case GreetingBranch => IsGreeting(text)
    case FollowUpBranch => RefersPreviousMovie(text) && HasReco(reco)
    case PreferenceBranch => AsksPreference(text)
    case MovieBranch => IsMovieIntent(text)
    case ModelBranch => true
  }

  /** The order in which the handler tries the branches. */
  function Rank(b: Branch): nat {
    match b
    case TimeBranch => 0
    case GreetingBranch => 1
    case FollowUpBranch => 2
    case PreferenceBranch => 3
    case MovieBranch => 4
    case ModelBranch => 5
  }

  /** The branch chosen is the first one, in handler order, whose condition
      holds. */
  lemma RouteIsFirstApplicable(text: string, reco: Option<string>)
    ensures Applies(Route(text, reco), text, reco)
    ensures forall b :: Rank(b) < Rank(Route(text, reco)) ==> !Applies(b, text, reco)
  {
    var r := Route(text, reco);
    forall b | Rank(b) < Rank(r) ensures !Applies(b, text, reco) {
      match b
      case TimeBranch =>
      case GreetingBranch =>
      case FollowUpBranch =>
      case PreferenceBranch =>
      case MovieBranch =>
      case ModelBranch => assert false;
    }
  }

  // ---------------------------------------------------------------------
  // Small talk and the repetition guard

  /** `h[i]` is the most recent turn by `role`. */
  predicate LatestBy(h: seq<Turn>, i: int, role: Role) {
    0 <= i < |h| && h[i].role == role && forall j :: i < j < |h| ==> h[j].role != role
  }

  /** The text of the most recent turn by `role`. */
  function LastTextOf(h: seq<Turn>, role: Role): (r: Option<string>)
    ensures r.Some? <==> exists i :: 0 <= i < |h| && h[i].role == role
    ensures r.Some? ==> exists i :: LatestBy(h, i, role) && h[i].text == r.value
    decreases |h|
  {
    if |h| == 0 then None
    else if h[|h| - 1].role == role then Some(h[|h| - 1].text)
    else
      var r := LastTextOf(h[..|h| - 1], role);
      assert forall i :: 0 <= i < |h| - 1 ==> h[..|h| - 1][i] == h[i];
      r
  }

  /** Lines 284-296: when the latest user message, lower-cased and
      stripped, contains a small-talk phrase, one of the fixed small-talk
      lines replaces the model's answer. */
  function SmallTalk(ans: string, h: seq<Turn>, pick: nat): (r: string)
    requires pick < |SmallTalkReplies|
    ensures r == ans || r in SmallTalkReplies
  {
    if |h| == 0 then ans
    else
      var last := match LastTextOf(h, User) case Some(t) => Strip(LowerStr(t), IsSpace) case None => "";
      if IsSmallTalk(last) then SmallTalkReplies[pick] else ans
  }

  /** The lower-cased, stripped message contains a small-talk phrase. */
  predicate IsSmallTalk(last: string) {
    exists p :: p in SmallTalkPhrases && Contains(last, p)
  }

  /** When the newest user turn contains a small-talk phrase, the answer is
      replaced by the chosen small-talk line. */
  lemma SmallTalkFires(ans: string, h: seq<Turn>, pick: nat, t: string)
    requires pick < |SmallTalkReplies|
    requires LastTextOf(h, User) == Some(t) && IsSmallTalk(Strip(LowerStr(t), IsSpace))
    ensures SmallTalk(ans, h, pick) == SmallTalkReplies[pick]
  {
  }

  /** Otherwise -- no user turn at all, or one without a small-talk
      phrase -- the answer is kept. */
  lemma SmallTalkKeeps(ans: string, h: seq<Turn>, pick: nat)
    requires pick < |SmallTalkReplies|
    requires LastTextOf(h, User).Some? ==> !IsSmallTalk(Strip(LowerStr(LastTextOf(h, User).value), IsSpace))
    ensures SmallTalk(ans, h, pick) == ans
  {
    if |h| > 0 && LastTextOf(h, User).None? {
      NothingIsNotSmallTalk();
    }
  }

  /** An empty message contains no small-talk phrase. */
  lemma NothingIsNotSmallTalk()
    ensures !IsSmallTalk("")
  {
    forall p | p in SmallTalkPhrases ensures !Contains("", p) {
      assert |p| > 0;
    }
  }

  /** Lines 298-305: an answer equal to the previous assistant turn,
      ignoring case and surrounding whitespace, becomes `RepeatReply`. */
  function Guard(ans: string, h: seq<Turn>): (r: string)
    ensures r == ans || r == RepeatReply
  {
    match LastTextOf(h, Assistant)
    case Some(p) =>
      if Strip(p, IsSpace) != "" && EqualsIgnoreCase(Strip(ans, IsSpace), Strip(p, IsSpace)) then RepeatReply
      else ans
    case None => ans
  }

  /** After the guard the reply never repeats the previous assistant turn
      (ignoring case and surrounding whitespace), unless that turn was the
      guard's own reply. */
  lemma {:induction false} GuardAvoidsRepeat(ans: string, h: seq<Turn>, p: string)
    requires LastTextOf(h, Assistant) == Some(p) && Strip(p, IsSpace) != ""
    requires !EqualsIgnoreCase(RepeatReply, Strip(p, IsSpace))
    ensures !EqualsIgnoreCase(Strip(Guard(ans, h), IsSpace), Strip(p, IsSpace))
  {
    if EqualsIgnoreCase(Strip(ans, IsSpace), Strip(p, IsSpace)) {
      RepeatReplyStripped();
    }
  }

  /** Without an earlier assistant turn, with a blank one, or when the
      answer differs from it beyond case and surrounding whitespace, the
      answer is kept. */
  lemma GuardKeeps(ans: string, h: seq<Turn>)
    requires || LastTextOf(h, Assistant).None?
             || Strip(LastTextOf(h, Assistant).value, IsSpace) == ""
             || !EqualsIgnoreCase(Strip(ans, IsSpace), Strip(LastTextOf(h, Assistant).value, IsSpace))
    ensures Guard(ans, h) == ans
  {
  }

  /** An answer that repeats the non-blank previous assistant turn, ignoring
      case and surrounding whitespace, becomes `RepeatReply`. */
  lemma GuardReplaces(ans: string, h: seq<Turn>, p: string)
    requires LastTextOf(h, Assistant) == Some(p) && Strip(p, IsSpace) != ""
    requires EqualsIgnoreCase(Strip(ans, IsSpace), Strip(p, IsSpace))
    ensures Guard(ans, h) == RepeatReply
  {
  }

  /** The guard does not keep the handler from repeating its own
      replacement: after `RepeatReply`, an answer equal to it comes out as
      `RepeatReply` again. */
  lemma GuardRepeatsItself(ans: string, h: seq<Turn>)
    requires LastTextOf(h, Assistant) == Some(RepeatReply)
    requires EqualsIgnoreCase(Strip(ans, IsSpace), RepeatReply)
    ensures Guard(ans, h) == RepeatReply
  {
    RepeatReplyStripped();
  }

  lemma RepeatReplyStripped()
    ensures Strip(RepeatReply, IsSpace) == RepeatReply
  {
    StripClean(RepeatReply, IsSpace);
  }

  /** The small-talk check sees the message of the current turn: it is the
      newest user turn once pushed. */
  lemma SmallTalkSeesCurrentMessage(sess: Session, userText: string)
    ensures LastTextOf(PushHistory(sess, User, userText).history, User) == Some(userText)
  {
  }

  /** The answer of the model branch: post-processing, small talk, guard. */
  function ModelAnswer(h: seq<Turn>, o: Oracle): string
    requires ValidOracle(o)
  {
    Guard(SmallTalk(FallbackAnswer(o.modelOutput), h, o.smallTalkPick), h)
  }

  // ---------------------------------------------------------------------
  // The step function

  /** The handler's JSON response together with the store it leaves. */
  datatype Response = Response(store: Store, text: string, sessionId: string)

  /** The reply of branch `b` and the recommendation stored afterwards. */
  function Answer(b: Branch, h: seq<Turn>, reco: Option<string>, o: Oracle): (r: (string, Option<string>))
    requires ValidOracle(o)
    requires b == FollowUpBranch ==> HasReco(reco)
    ensures b != MovieBranch ==> r.1 == reco
    ensures b == MovieBranch ==> r.1 == Some(MovieRecs[o.moviePick].0)
  {
    match b
    case TimeBranch => (TimeReply(o.hour, o.minute), reco)
    case GreetingBranch => (GreetingReply, reco)
    case FollowUpBranch => (FollowUpReply(reco.value), reco)
    case PreferenceBranch => (PreferenceReply, reco)
    case MovieBranch =>
      var (title, blurb) := MovieRecs[o.moviePick];
      (MovieReply(title, blurb), Some(title))
    case ModelBranch => (ModelAnswer(h, o), reco)
  }

  /** The title the movie branch recommends for this oracle. */
  function PickedTitle(o: Oracle): string
    requires ValidOracle(o)
  {
    MovieRecs[o.moviePick].0
  }

  /** Handling one message within its session: the reply, and the session
      afterwards. The reply is the routed branch's answer, computed with the
      message already in the history; both turns go into the history, newest
      twelve kept; only the movie branch changes the stored recommendation. */
  function Respond(sess: Session, userText: string, o: Oracle): (r: (string, Session))
    requires ValidOracle(o)
    ensures r.1.history == LastN(sess.history + [Turn(User, userText), Turn(Assistant, r.0)], HistoryLimit)
    ensures r.1.lastReco == if Route(userText, sess.lastReco) == MovieBranch then Some(PickedTitle(o)) else sess.lastReco
  {
    var s1 := PushHistory(sess, User, userText);
    var b := Route(userText, s1.lastReco);
    var ans := Answer(b, s1.history, s1.lastReco, o);
    PushTwice(sess, Turn(User, userText), Turn(Assistant, ans.0));
    (ans.0, PushHistory(s1.(lastReco := ans.1), Assistant, ans.0))
  }

  /** One `/chat` request. */
  function Chat(store: Store, sid: Option<string>, text: string, o: Oracle): (r: Response)
    requires ValidOracle(o)
    ensures r.sessionId in r.store
    ensures Known(store, sid) ==> r.sessionId == sid.value
    ensures !Known(store, sid) ==> r.sessionId == o.freshId
    ensures r.store.Keys == store.Keys + {r.sessionId}
    ensures forall k :: k in store && k != r.sessionId ==> r.store[k] == store[k]
  {
    var look := GetSession(store, sid, o.freshId);
    var step := Respond(look.session, Strip(text, IsSpace), o);
    Response(Save(look.store, look.id, step.1), step.0, look.id)
  }

  // ---------------------------------------------------------------------
  // Properties of a turn

  /** The session as it was before the request: found, or freshly made. */
  function Before(store: Store, sid: Option<string>, o: Oracle): Session {
    GetSession(store, sid, o.freshId).session
  }

  /** The reply is the routed branch's answer, computed with the message
      already in the history. */
  lemma RespondReply(sess: Session, userText: string, o: Oracle)
    requires ValidOracle(o)
    ensures Respond(sess, userText, o).0
         == Answer(Route(userText, sess.lastReco), LastN(sess.history + [Turn(User, userText)], HistoryLimit), sess.lastReco, o).0
  {
    PushIsWindow(sess, User, userText);
  }

  lemma RespondFollowUp(sess: Session, userText: string, o: Oracle)
    requires ValidOracle(o) && Route(userText, sess.lastReco) == FollowUpBranch
    ensures sess.lastReco.Some? && Respond(sess, userText, o).0 == FollowUpReply(sess.lastReco.value)
  {
    var s1 := PushHistory(sess, User, userText);
    assert s1.lastReco == sess.lastReco;
    assert Respond(sess, userText, o).0 == Answer(FollowUpBranch, s1.history, sess.lastReco, o).0;
  }

  /** In the default branch, a message containing a small-talk phrase is
      answered with the chosen small-talk line, unless the guard turns it
      into `RepeatReply`. */
  lemma RespondSmallTalk(sess: Session, userText: string, o: Oracle)
    requires ValidOracle(o) && Route(userText, sess.lastReco) == ModelBranch
    requires IsSmallTalk(Strip(LowerStr(userText), IsSpace))
    ensures var h := LastN(sess.history + [Turn(User, userText)], HistoryLimit);
      Respond(sess, userText, o).0 == Guard(SmallTalkReplies[o.smallTalkPick], h)
  {
    var s1 := PushHistory(sess, User, userText);
    PushIsWindow(sess, User, userText);
    RespondReply(sess, userText, o);
    SmallTalkSeesCurrentMessage(sess, userText);
    SmallTalkFires(FallbackAnswer(o.modelOutput), s1.history, o.smallTalkPick, userText);
  }

  /** A request is its session's step, saved under the session's id. */
  lemma ChatStep(store: Store, sid: Option<string>, text: string, o: Oracle)
    requires ValidOracle(o)
    ensures var r := Chat(store, sid, text, o);
      var step := Respond(Before(store, sid, o), Strip(text, IsSpace), o);
      r.text == step.0 && r.store[r.sessionId] == step.1
  {
  }

  /** Each request adds exactly two turns to its session -- the stripped
      message, then the reply -- and the history keeps the newest twelve. */
  lemma ChatHistory(store: Store, sid: Option<string>, text: string, o: Oracle)
    requires ValidOracle(o)
    ensures var r := Chat(store, sid, text, o);
      r.store[r.sessionId].history
        == LastN(Before(store, sid, o).history + [Turn(User, Strip(text, IsSpace)), Turn(Assistant, r.text)], HistoryLimit)
  {
    ChatStep(store, sid, text, o);
  }

  /** Only the movie branch writes the stored recommendation, and it writes
      the title of the pick; every other branch leaves it as it was. */
  lemma ChatReco(store: Store, sid: Option<string>, text: string, o: Oracle)
    requires ValidOracle(o)
    ensures var r := Chat(store, sid, text, o);
      var prev := Before(store, sid, o);
      r.store[r.sessionId].lastReco
        == if Route(Strip(text, IsSpace), prev.lastReco) == MovieBranch then Some(PickedTitle(o)) else prev.lastReco
  {
    ChatStep(store, sid, text, o);
  }

  /** A question about the time is answered with the time, whatever else
      the message says: the time branch comes first. */
  lemma ChatAnswersTime(store: Store, sid: Option<string>, text: string, o: Oracle)
    requires ValidOracle(o) && IsTimeQuestion(Strip(text, IsSpace))
    ensures Chat(store, sid, text, o).text == TimeReply(o.hour, o.minute)
  {
    ChatStep(store, sid, text, o);
    RespondReply(Before(store, sid, o), Strip(text, IsSpace), o);
  }

  /** A follow-up question is answered by quoting the title recommended
      earlier in the same session. */
  lemma ChatFollowUpQuotes(store: Store, sid: Option<string>, text: string, o: Oracle)
    requires ValidOracle(o)
    requires Route(Strip(text, IsSpace), Before(store, sid, o).lastReco) == FollowUpBranch
    ensures Before(store, sid, o).lastReco.Some?
    ensures Contains(Chat(store, sid, text, o).text, Before(store, sid, o).lastReco.value)
  {
    var sess := Before(store, sid, o);
    RespondFollowUp(sess, Strip(text, IsSpace), o);
    ChatStep(store, sid, text, o);
    var title := sess.lastReco.value;
    var reply := Chat(store, sid, text, o).text;
    assert reply == FollowUpReply(title);
    FollowUpQuotesTitle(title);
    assert OccursAt(reply, |FollowUpLead| + 1, title);
  }

  /** A request routed to the model whose message contains a small-talk
      phrase gets one of the fixed small-talk lines, or `RepeatReply` when
      that line would repeat the previous answer. */
  lemma ChatSmallTalk(store: Store, sid: Option<string>, text: string, o: Oracle)
    requires ValidOracle(o)
    requires Route(Strip(text, IsSpace), Before(store, sid, o).lastReco) == ModelBranch
    requires IsSmallTalk(Strip(LowerStr(Strip(text, IsSpace)), IsSpace))
    ensures var r := Chat(store, sid, text, o).text;
      r == SmallTalkReplies[o.smallTalkPick] || r == RepeatReply
  {
    ChatStep(store, sid, text, o);
    RespondSmallTalk(Before(store, sid, o), Strip(text, IsSpace), o);
  }

  /** The model branch answers with the post-processed model output, a
      small-talk line or the repetition reply, and never with more than 93
      characters. */
  lemma {:induction false} ModelAnswerBounded(h: seq<Turn>, o: Oracle)
    requires ValidOracle(o)
    ensures var r := ModelAnswer(h, o);
      && (r == FallbackAnswer(o.modelOutput) || r in SmallTalkReplies || r == RepeatReply)
      && |r| <= 93
  {
    SmallTalkRepliesShort();
  }

  lemma SmallTalkRepliesShort()
    ensures forall t :: t in SmallTalkReplies ==> |t| <= 93
    ensures |RepeatReply| <= 93
  {
  }

  /** "What time is it?" gets the time. */
  lemma WhatTimeIsItAnswered(store: Store, sid: Option<string>, o: Oracle)
    requires ValidOracle(o)
    ensures Chat(store, sid, "What time is it?", o).text == TimeReply(o.hour, o.minute)
  {
    StripClean("What time is it?", IsSpace);
    WhatTimeIsIt();
    ChatAnswersTime(store, sid, "What time is it?", o);
  }

  // ---------------------------------------------------------------------
  // The store invariant over a conversation

  /** `t` is the title of one of the pool's movies. */
  predicate IsTitle(t: string) {
    exists i :: 0 <= i < |MovieRecs| && MovieRecs[i].0 == t
  }

  /** A session keeps at most twelve turns and remembers nothing but a
      title from the pool. */
  predicate SessionOk(sess: Session) {
    Bounded(sess) && (sess.lastReco.Some? ==> IsTitle(sess.lastReco.value))
  }

  predicate StoreOk(store: Store) {
    forall k :: k in store ==> SessionOk(store[k])
  }

  lemma RespondKeepsOk(sess: Session, userText: string, o: Oracle)
    requires ValidOracle(o) && SessionOk(sess)
    ensures SessionOk(Respond(sess, userText, o).1)
  {
    assert IsTitle(PickedTitle(o));
  }

  lemma {:induction false} ChatKeepsStoreOk(store: Store, sid: Option<string>, text: string, o: Oracle)
    requires ValidOracle(o) && StoreOk(store)
    ensures StoreOk(Chat(store, sid, text, o).store)
  {
    var r := Chat(store, sid, text, o);
    var prev := Before(store, sid, o);
    assert SessionOk(prev) by {
      assert prev == FreshSession || prev == store[sid.value];
    }
    ChatStep(store, sid, text, o);
    RespondKeepsOk(prev, Strip(text, IsSpace), o);
  }

  /** One request of a conversation: the session id sent, the message, and
      what the world supplied while it was handled. */
  datatype Request = Request(sid: Option<string>, text: string, oracle: Oracle)

  /** Handling a sequence of requests in order. */
  function Converse(store: Store, reqs: seq<Request>): (r: Store)
    requires forall i :: 0 <= i < |reqs| ==> ValidOracle(reqs[i].oracle)
    ensures store.Keys <= r.Keys
    decreases |reqs|
  {
    if |reqs| == 0 then store
    else
      var q := reqs[0];
      Converse(Chat(store, q.sid, q.text, q.oracle).store, reqs[1..])
  }

  /** However long the conversation, every session stays within the
      history limit and only ever remembers a title from the pool. */
  lemma {:induction false} ConverseKeepsStoreOk(store: Store, reqs: seq<Request>)
    requires forall i :: 0 <= i < |reqs| ==> ValidOracle(reqs[i].oracle)
    requires StoreOk(store)
    ensures StoreOk(Converse(store, reqs))
    decreases |reqs|
  {
    if |reqs| > 0 {
      var q := reqs[0];
      ChatKeepsStoreOk(store, q.sid, q.text, q.oracle);
      ConverseKeepsStoreOk(Chat(store, q.sid, q.text, q.oracle).store, reqs[1..]);
    }
  }
}

=== FILE: clean.dfy ===
/** `_clean_answer`: the first clean-up applied to raw model output before
    it becomes a reply. Surrounding whitespace, straight and curly quotes
    and leading colons go, hashtags go, and every character outside a small
    allow-list is dropped.
 */
module Cleaning {
  import opened Chars
  import opened Text

  predicate IsStraightQuote(c: char) {
    c == '"'
  }

  /** The curly double quotes U+201C and U+201D. */
  predicate IsCurlyQuote(c: char) {
    c == '\U{201C}' || c == '\U{201D}'
  }

  predicate IsColon(c: char) {
    c == ':'
  }

  /** The character class `[\w\s.,!?'\-:()]` that survives cleaning. */
  predicate Allowed(c: char) {
    IsWord(c) || IsSpace(c) || c in ".,!?'-:()"
  }

  /** What cleaning guarantees: only allowed characters, and no whitespace
      at either end. */
  predicate IsClean(s: string) {
    && (forall i :: 0 <= i < |s| ==> Allowed(s[i]))
    && (|s| > 0 ==> !IsSpace(s[0]) && !IsSpace(s[|s| - 1]))
  }

  /** No `#` is directly followed by a word character: nothing left that
      `#\w+` could match. */
  predicate NoHashtag(s: string) {
    forall i :: 0 <= i < |s| - 1 && s[i] == '#' ==> !IsWord(s[i + 1])
  }

  /** `re.sub(r"#\w+", "", s)`: every `#` followed by a maximal run of word
      characters is deleted together with the run. */
  function RemoveHashtags(s: string): (r: string)
    ensures '#' !in s ==> r == s
    ensures |r| > 0 && |s| > 0 && !IsWord(s[0]) ==> !IsWord(r[0])
    decreases |s|
  {
    if |s| == 0 then ""
    else if s[0] == '#' && |s| > 1 && IsWord(s[1]) then
      RemoveHashtags(s[1 + LeadCount(s[1..], IsWord)..])
    else
      assert s == [s[0]] + s[1..];
      [s[0]] + RemoveHashtags(s[1..])
  }

  /** The substitution uses no character more often than the input does. */
  lemma {:induction false} HashtagsMultiset(s: string)
    ensures multiset(RemoveHashtags(s)) <= multiset(s)
    decreases |s|
  {
    if |s| == 0 {
    } else if s[0] == '#' && |s| > 1 && IsWord(s[1]) {
      var n := 1 + LeadCount(s[1..], IsWord);
      assert RemoveHashtags(s) == RemoveHashtags(s[n..]);
      HashtagsMultiset(s[n..]);
      SuffixMultiset(s, n);
    } else {
      var t := RemoveHashtags(s[1..]);
      assert RemoveHashtags(s) == [s[0]] + t;
      HashtagsMultiset(s[1..]);
      assert s == [s[0]] + s[1..];
    }
  }

  /** The substitution only deletes characters: what is left keeps the
      order it had in the input. */
  lemma {:induction false} HashtagsSubseq(s: string)
    ensures IsSubseq(RemoveHashtags(s), s)
    decreases |s|
  {
    if |s| == 0 {
    } else if s[0] == '#' && |s| > 1 && IsWord(s[1]) {
      var n := 1 + LeadCount(s[1..], IsWord);
      HashtagsSubseq(s[n..]);
      SubseqOfSuffix(RemoveHashtags(s), s, n);
    } else {
      HashtagsSubseq(s[1..]);
      SubseqKeepHead(RemoveHashtags(s[1..]), s);
    }
  }

  /** The substitution deletes only `#` and word characters: every other
      character keeps its count. */
  lemma HashtagsKeep(s: string)
    ensures forall c :: !IsWord(c) && c != '#' ==> multiset(RemoveHashtags(s))[c] == multiset(s)[c]
  {
    forall c | !IsWord(c) && c != '#' ensures multiset(RemoveHashtags(s))[c] == multiset(s)[c] {
      HashtagsKeepOf(s, c);
    }
  }

  lemma {:induction false} HashtagsKeepOf(s: string, c: char)
    requires !IsHashOrWord(c)
    ensures multiset(RemoveHashtags(s))[c] == multiset(s)[c]
    decreases |s|
  {
    if |s| == 0 {
    } else if s[0] == '#' && |s| > 1 && IsWord(s[1]) {
      var k := 1 + LeadCount(s[1..], IsWord);
      HashtagsKeepOf(s[k..], c);
      HashtagCount(s, c);
    } else {
      HashtagsKeepOf(s[1..], c);
      HeadCount(s, RemoveHashtags(s[1..]), c);
    }
  }

  /** Deleting a hashtag at the front keeps the count of every other
      character. */
  lemma HashtagCount(s: string, c: char)
    requires |s| > 0 && s[0] == '#' && !IsHashOrWord(c)
    ensures multiset(s[1 + LeadCount(s[1..], IsWord)..])[c] == multiset(s)[c]
  {
    var k := 1 + LeadCount(s[1..], IsWord);
    HashtagIsHashOrWord(s);
    assert s[k..|s|] == s[k..];
    SliceCount(s, IsHashOrWord, k, |s|, c);
  }

  /** The characters a hashtag is made of. */
  predicate IsHashOrWord(c: char) {
    c == '#' || IsWord(c)
  }

  /** A hashtag at the front of `s` is made of such characters. */
  lemma HashtagIsHashOrWord(s: string)
    requires |s| > 0 && s[0] == '#'
    ensures forall i :: 0 <= i < 1 + LeadCount(s[1..], IsWord) ==> IsHashOrWord(s[i])
  {
    var n := LeadCount(s[1..], IsWord);
    forall i | 1 <= i < 1 + n ensures IsWord(s[i]) {
      assert s[i] == s[1..][i - 1];
    }
  }

  /** After removal no hashtag is left: the run after a deleted tag starts
      with a non-word character, so a `#` that survives is never followed by
      a word character. */
  lemma {:induction false} HashtagsRemoved(s: string)
    ensures NoHashtag(RemoveHashtags(s))
    decreases |s|
  {
    if |s| == 0 {
    } else if s[0] == '#' && |s| > 1 && IsWord(s[1]) {
      HashtagsRemoved(s[1 + LeadCount(s[1..], IsWord)..]);
    } else {
      HashtagsRemoved(s[1..]);
      var t := RemoveHashtags(s[1..]);
      if s[0] == '#' && |t| > 0 {
        assert !IsWord(s[1]);
      }
      assert RemoveHashtags(s) == [s[0]] + t;
    }
  }

  /** The unwrapping half of cleaning: surrounding whitespace, straight
      then curly quotes, then leading colons. */
  function Unwrap(s: string): (r: string)
    ensures multiset(r) <= multiset(s)
    ensures IsSubseq(r, s)
  {
    var a := Strip(s, IsSpace);
    var b := Strip(a, IsStraightQuote);
    var c := Strip(b, IsCurlyQuote);
    StripMultiset(s, IsSpace);
    StripMultiset(a, IsStraightQuote);
    StripMultiset(b, IsCurlyQuote);
    SuffixMultiset(c, LeadCount(c, IsColon));
    UnwrapSubseq(s, a, b, c);
    DropWhile(c, IsColon)
  }

  lemma UnwrapSubseq(s: string, a: string, b: string, c: string)
    requires a == Strip(s, IsSpace) && b == Strip(a, IsStraightQuote)
    requires c == Strip(b, IsCurlyQuote)
    ensures IsSubseq(DropWhile(c, IsColon), s)
  {
    StripSubseq(s, IsSpace);
    StripSubseq(a, IsStraightQuote);
    StripSubseq(b, IsCurlyQuote);
    SliceIsSubseq(c, LeadCount(c, IsColon), |c|);
    assert c[LeadCount(c, IsColon)..|c|] == DropWhile(c, IsColon);
    SubseqTrans(DropWhile(c, IsColon), c, b);
    SubseqTrans(DropWhile(c, IsColon), b, a);
    SubseqTrans(DropWhile(c, IsColon), a, s);
  }

  /** The filtering half of cleaning: hashtags removed, then every
      character outside the allow-list dropped. */
  function Tidy(s: string): (r: string)
    ensures forall i :: 0 <= i < |r| ==> Allowed(r[i])
    ensures multiset(r) <= multiset(s)
    ensures IsSubseq(r, s)
    ensures (forall i :: 0 <= i < |s| ==> Allowed(s[i])) ==> r == s
  {
    AllowedHasNoHash(s);
    HashtagsMultiset(s);
    HashtagsSubseq(s);
    var r := Filter(RemoveHashtags(s), Allowed);
    SubseqTrans(r, RemoveHashtags(s), s);
    r
  }

  /** Tidying deletes only hashtags and characters outside the
      allow-list: an allowed non-word character keeps its count, and
      without a `#` in the text every allowed character does. */
  lemma TidyKeeps(s: string)
    ensures forall c :: Allowed(c) && !IsWord(c) ==> multiset(Tidy(s))[c] == multiset(s)[c]
    ensures '#' !in s ==> forall c :: multiset(Tidy(s))[c] == if Allowed(c) then multiset(s)[c] else 0
  {
    FilterCount(RemoveHashtags(s), Allowed);
    forall c | Allowed(c) && !IsWord(c) ensures multiset(Tidy(s))[c] == multiset(s)[c] {
      TidyKeepsOf(s, c);
    }
  }

  lemma TidyKeepsOf(s: string, c: char)
    requires Allowed(c) && (IsWord(c) ==> '#' !in s)
    ensures multiset(Tidy(s))[c] == multiset(s)[c]
  {
    FilterCountOf(RemoveHashtags(s), Allowed, c);
    if !IsWord(c) {
      HashtagsKeepOf(s, c);
    }
  }

  /** The characters unwrapping may delete. */
  predicate IsWrapping(c: char) {
    IsSpace(c) || IsStraightQuote(c) || IsCurlyQuote(c) || IsColon(c)
  }

  /** Unwrapping deletes only whitespace, quotes and colons: every other
      character keeps its count. */
  lemma UnwrapKeeps(s: string)
    ensures forall c :: !IsWrapping(c) ==> multiset(Unwrap(s))[c] == multiset(s)[c]
  {
    forall c | !IsWrapping(c) ensures multiset(Unwrap(s))[c] == multiset(s)[c] {
      UnwrapKeepsOf(s, c);
    }
  }

  lemma UnwrapKeepsOf(s: string, c: char)
    requires !IsWrapping(c)
    ensures multiset(Unwrap(s))[c] == multiset(s)[c]
  {
    var a := Strip(s, IsSpace);
    var b := Strip(a, IsStraightQuote);
    var d := Strip(b, IsCurlyQuote);
    StripCount(s, IsSpace, c);
    StripCount(a, IsStraightQuote, c);
    StripCount(b, IsCurlyQuote, c);
    DropWhileCount(d, IsColon, c);
  }

  /** `#` is not an allowed character. */
  lemma AllowedHasNoHash(s: string)
    ensures (forall i :: 0 <= i < |s| ==> Allowed(s[i])) ==> '#' !in s
  {
    if forall i :: 0 <= i < |s| ==> Allowed(s[i]) {
      forall i | 0 <= i < |s| ensures s[i] != '#' {
        assert Allowed(s[i]);
      }
    }
  }

  /** The cleaning pipeline of `_clean_answer`: unwrap, trim, tidy, trim
      again. */
  function CleanAnswer(s: string): (r: string)
    ensures IsClean(r)
    ensures multiset(r) <= multiset(s)
    ensures IsSubseq(r, s)
  {
    var u := Strip(Unwrap(s), IsSpace);
    var g := Tidy(u);
    StripMultiset(Unwrap(s), IsSpace);
    StripSubseq(Unwrap(s), IsSpace);
    SubseqTrans(u, Unwrap(s), s);
    SubseqTrans(g, u, s);
    FinalStrip(g, s);
    Strip(g, IsSpace)
  }

  lemma FinalStrip(g: string, s: string)
    requires forall i :: 0 <= i < |g| ==> Allowed(g[i])
    requires multiset(g) <= multiset(s)
    requires IsSubseq(g, s)
    ensures forall i :: 0 <= i < |Strip(g, IsSpace)| ==> Allowed(Strip(g, IsSpace)[i])
    ensures multiset(Strip(g, IsSpace)) <= multiset(s)
    ensures IsSubseq(Strip(g, IsSpace), s)
  {
    StripMultiset(g, IsSpace);
    StripSubseq(g, IsSpace);
    SubseqTrans(Strip(g, IsSpace), g, s);
    StripKeeps(g, IsSpace, Allowed);
  }

  /** Cleaning keeps every allowed character other than whitespace and
      the colon (which the unwrapping may strip), except that word
      characters may go with a hashtag: punctuation such as `.,!?'-()`
      always survives, and so does every word character when the text has
      no `#`. */
  lemma CleanKeeps(s: string, ch: char)
    requires Allowed(ch) && !IsSpace(ch) && ch != ':'
    requires IsWord(ch) ==> '#' !in s
    ensures multiset(CleanAnswer(s))[ch] == multiset(s)[ch]
  {
    var w := Unwrap(s);
    var u := Strip(w, IsSpace);
    var g := Tidy(u);
    AllowedIsNoQuote(ch);
    UnwrapKeepsOf(s, ch);
    StripCount(w, IsSpace, ch);
    if IsWord(ch) {
      StripMultiset(w, IsSpace);
      assert multiset(u)['#'] == 0;
    }
    TidyKeepsOf(u, ch);
    StripCount(g, IsSpace, ch);
  }

  /** Punctuation of the allow-list other than the colon is never lost:
      every `.`, `,`, `!`, `?`, `'`, `-`, `(` and `)` of the raw output is
      still in the cleaned answer. */
  lemma CleanKeepsPunctuation(s: string, ch: char)
    requires ch == '.' || ch == ',' || ch == '!' || ch == '?' || ch == '\'' || ch == '-' || ch == '(' || ch == ')'
    ensures multiset(CleanAnswer(s))[ch] == multiset(s)[ch]
  {
    CleanKeeps(s, ch);
  }

  /** Whitespace-only output cleans to the empty string. */
  lemma {:induction false} CleanBlank(s: string)
    requires forall i :: 0 <= i < |s| ==> IsSpace(s[i])
    ensures CleanAnswer(s) == ""
  {
    assert Strip(s, IsSpace) == "";
  }

  /** Text that is already clean -- only allowed characters, no surrounding
      whitespace, no leading colon -- is a fixed point of cleaning. */
  lemma {:induction false} CleanFixedPoint(s: string)
    requires IsClean(s) && (|s| == 0 || s[0] != ':')
    ensures CleanAnswer(s) == s
  {
    UnwrapClean(s);
    StripClean(s, IsSpace);
    assert Strip(Unwrap(s), IsSpace) == s;
    assert Tidy(s) == s;
  }

  lemma {:induction false} UnwrapClean(s: string)
    requires IsClean(s) && (|s| == 0 || s[0] != ':')
    ensures Unwrap(s) == s
  {
    if |s| > 0 {
      AllowedIsNoQuote(s[0]);
      AllowedIsNoQuote(s[|s| - 1]);
    }
    StripClean(s, IsSpace);
    StripClean(s, IsStraightQuote);
    StripClean(s, IsCurlyQuote);
    assert Unwrap(s) == DropWhile(s, IsColon);
    assert LeadCount(s, IsColon) == 0;
  }

  lemma AllowedIsNoQuote(c: char)
    requires Allowed(c)
    ensures !IsStraightQuote(c) && !IsCurlyQuote(c)
  {
  }

  /** Cleaning twice is cleaning once, unless the first pass leaves a
      colon at the front (the colon that a removed hashtag or dropped
      character uncovered). */
  lemma {:induction false} CleanIdempotent(s: string)
    requires |CleanAnswer(s)| == 0 || CleanAnswer(s)[0] != ':'
    ensures CleanAnswer(CleanAnswer(s)) == CleanAnswer(s)
  {
    var c := CleanAnswer(s);
    CleanFixedPoint(c);
  }

  /** Leading whitespace makes no difference to cleaning. */
  lemma CleanIgnoresLeadingSpace(c: char, x: string)
    requires IsSpace(c)
    ensures CleanAnswer([c] + x) == CleanAnswer(x)
  {
    StripLeading(c, x, IsSpace);
  }
}

=== FILE: debloat.dfy ===
/** `_debloat`: removal of boilerplate disclaimers ("As an AI ...",
    "I don't have personal preferences ...") from a reply. Each disclaimer
    is removed together with the rest of its clause, the clause's closing
    `.`, `!` or line feed, and the whitespace after it; the remainder is
    then trimmed of spaces, commas, periods and hyphens.
 */
module Debloating {
  import opened Chars
  import opened Text
  import opened Patterns

  /** The alternatives of the first pattern, in lower case. */
  const DisclaimerPhrases: seq<string> := ["as an ai", "as an artificial intelligence"]

  /** The alternatives of the second pattern, in lower case, in the order
      the regex tries them. */
  const NoPreferencePhrases: seq<string> := [
    "i do not have personal preferences", "i do not have personal opinions",
    "i don't have personal preferences", "i don't have personal opinions"
  ]

  /** The class `[.!\n]` that closes a clause. */
  predicate IsClauseEnd(c: char) {
    c == '.' || c == '!' || c == '\n'
  }

  predicate NotClauseEnd(c: char) {
    !IsClauseEnd(c)
  }

  /** The characters `str.strip(" ,.-")` removes. */
  predicate IsLoosePunct(c: char) {
    c in " ,.-"
  }

  /** A match of `\b(?:ps)` starts at position `i` of `s`. */
  predicate MatchStart(s: string, i: int, ps: seq<string>) {
    Boundary(s, i) && AnyMatchesAt(s, i, ps)
  }

  /** Some non-empty phrase of `ps` matches at `i`, ignoring case. */
  predicate AnyMatchesAt(s: string, i: int, ps: seq<string>) {
    exists k :: k in ps && |k| > 0 && MatchesAt(s, i, k)
  }

  /** No match starts anywhere in `s[i..]`. */
  predicate NoMatchFrom(s: string, i: int, ps: seq<string>) {
    forall j :: i <= j < |s| ==> !MatchStart(s, j, ps)
  }

  /** Length of the first phrase of `ps` that matches at the front of `t`
      (ignoring case), or 0 when none does: the alternative the regex
      commits to. */
  function PhraseLength(t: string, ps: seq<string>): (n: nat)
    ensures n <= |t|
  {
    if |ps| == 0 then 0
    else if |ps[0]| > 0 && MatchesAt(t, 0, ps[0]) then |ps[0]|
    else PhraseLength(t, ps[1..])
  }

  /** The regex commits to a phrase exactly when one matches, and the
      length it reports is that of a matching phrase. */
  lemma {:induction false} PhraseLengthMatches(t: string, ps: seq<string>)
    ensures var n := PhraseLength(t, ps);
      && (n > 0 ==> exists k :: k in ps && |k| == n && MatchesAt(t, 0, k))
      && (n > 0 <==> AnyMatchesAt(t, 0, ps))
    decreases |ps|
  {
    if |ps| > 0 && !(|ps[0]| > 0 && MatchesAt(t, 0, ps[0])) {
      PhraseLengthMatches(t, ps[1..]);
      assert forall k :: k in ps ==> k == ps[0] || k in ps[1..];
    }
  }

  /** Where the tail `[^.!\n]*[.!\n]?\s*` that starts at `j` ends: past the
      rest of the clause, one closing character if there is one, and the
      whitespace after it. */
  function ClauseEnd(t: string, j: nat): (e: nat)
    requires j <= |t|
    ensures j <= e <= |t|
  {
    var a := j + LeadCount(t[j..], NotClauseEnd);
    var b := if a < |t| then a + 1 else a;
    b + LeadCount(t[b..], IsSpace)
  }

  /** `\b` at the front of `t`, given whether the character before `t` is a
      word character. */
  predicate BoundaryAfter(afterWord: bool, t: string) {
    afterWord != (|t| > 0 && IsWord(t[0]))
  }

  /** `pattern.sub("", ...)` for the pattern `\b(?:ps)[^.!\n]*[.!\n]?\s*`,
      scanning the text `t` that is left; `afterWord` says whether the
      character just before `t` in the original text is a word character,
      which is all that `\b` needs to know about what came before. */
  function Scrub(t: string, afterWord: bool, ps: seq<string>): (r: string)
    decreases |t|
  {
    if |t| == 0 then ""
    else if BoundaryAfter(afterWord, t) && PhraseLength(t, ps) > 0 then
      var e := ClauseEnd(t, PhraseLength(t, ps));
      Scrub(t[e..], IsWord(t[e - 1]), ps)
    else
      [t[0]] + Scrub(t[1..], IsWord(t[0]), ps)
  }

  /** The substitution uses no character more often than the input does. */
  lemma {:induction false} ScrubMultiset(t: string, afterWord: bool, ps: seq<string>)
    ensures multiset(Scrub(t, afterWord, ps)) <= multiset(t)
    decreases |t|
  {
    if |t| > 0 {
      if BoundaryAfter(afterWord, t) && PhraseLength(t, ps) > 0 {
        var e := ClauseEnd(t, PhraseLength(t, ps));
        assert Scrub(t, afterWord, ps) == Scrub(t[e..], IsWord(t[e - 1]), ps);
        ScrubMultiset(t[e..], IsWord(t[e - 1]), ps);
        SuffixMultiset(t, e);
      } else {
        var rest := Scrub(t[1..], IsWord(t[0]), ps);
        assert Scrub(t, afterWord, ps) == [t[0]] + rest;
        ScrubMultiset(t[1..], IsWord(t[0]), ps);
        assert t == [t[0]] + t[1..];
      }
    }
  }

  /** The substitution only deletes characters: what is left keeps the
      order it had in the input. */
  lemma {:induction false} ScrubSubseq(t: string, afterWord: bool, ps: seq<string>)
    ensures IsSubseq(Scrub(t, afterWord, ps), t)
    decreases |t|
  {
    if |t| > 0 {
      if BoundaryAfter(afterWord, t) && PhraseLength(t, ps) > 0 {
        var e := ClauseEnd(t, PhraseLength(t, ps));
        ScrubSubseq(t[e..], IsWord(t[e - 1]), ps);
        SubseqOfSuffix(Scrub(t, afterWord, ps), t, e);
      } else {
        ScrubSubseq(t[1..], IsWord(t[0]), ps);
        SubseqKeepHead(Scrub(t[1..], IsWord(t[0]), ps), t);
      }
    }
  }

  /** The scan's view of `s[i..]` agrees with the regex's view of `s` at
      position `i`. */
  lemma SuffixView(s: string, i: nat, ps: seq<string>)
    requires i < |s|
    ensures BoundaryAfter(i > 0 && IsWord(s[i - 1]), s[i..]) == Boundary(s, i)
    ensures AnyMatchesAt(s[i..], 0, ps) == AnyMatchesAt(s, i, ps)
  {
    forall k | k in ps && |k| > 0 && i + |k| <= |s|
      ensures MatchesAt(s[i..], 0, k) == MatchesAt(s, i, k)
    {
      assert s[i..][0..|k|] == s[i..i + |k|];
    }
  }

  /** Where no match starts, the substitution changes nothing. */
  lemma {:induction false} ScrubNoMatch(s: string, i: nat, ps: seq<string>)
    requires i <= |s|
    requires NoMatchFrom(s, i, ps)
    ensures Scrub(s[i..], i > 0 && IsWord(s[i - 1]), ps) == s[i..]
    decreases |s| - i
  {
    if i < |s| {
      assert !MatchStart(s, i, ps);
      SuffixView(s, i, ps);
      PhraseLengthMatches(s[i..], ps);
      ScrubNoMatch(s, i + 1, ps);
      assert s[i..][1..] == s[i + 1..];
      assert s[i..] == [s[i]] + s[i + 1..];
    }
  }

  /** `_debloat`: both substitutions, then the loose punctuation trim. */
  function Debloat(s: string): (r: string)
    ensures multiset(r) <= multiset(s)
    ensures IsSubseq(r, s)
    ensures |r| > 0 ==> !IsLoosePunct(r[0]) && !IsLoosePunct(r[|r| - 1])
  {
    var a := Scrub(s, false, DisclaimerPhrases);
    var b := Scrub(a, false, NoPreferencePhrases);
    DebloatDeletes(s, a, b);
    Strip(b, IsLoosePunct)
  }

  lemma DebloatDeletes(s: string, a: string, b: string)
    requires a == Scrub(s, false, DisclaimerPhrases)
    requires b == Scrub(a, false, NoPreferencePhrases)
    ensures multiset(Strip(b, IsLoosePunct)) <= multiset(s)
    ensures IsSubseq(Strip(b, IsLoosePunct), s)
  {
    ScrubMultiset(s, false, DisclaimerPhrases);
    ScrubMultiset(a, false, NoPreferencePhrases);
    StripMultiset(b, IsLoosePunct);
    ScrubSubseq(s, false, DisclaimerPhrases);
    ScrubSubseq(a, false, NoPreferencePhrases);
    StripSubseq(b, IsLoosePunct);
    SubseqTrans(Strip(b, IsLoosePunct), b, a);
    SubseqTrans(Strip(b, IsLoosePunct), a, s);
  }

  /** Text without any disclaimer is only trimmed. */
  lemma {:induction false} DebloatNoDisclaimer(s: string)
    requires NoMatchFrom(s, 0, DisclaimerPhrases)
    requires NoMatchFrom(s, 0, NoPreferencePhrases)
    ensures Debloat(s) == Strip(s, IsLoosePunct)
  {
    ScrubNoMatch(s, 0, DisclaimerPhrases);
    assert s[0..] == s;
    ScrubNoMatch(s, 0, NoPreferencePhrases);
  }

  /** Every phrase starts with a word character and contains no
      clause-closing character. */
  predicate WellFormedPhrases(ps: seq<string>) {
    && (forall k :: k in ps ==> |k| > 0 && IsWord(k[0]))
    && (forall k, m :: k in ps && 0 <= m < |k| ==> NotClauseEnd(k[m]))
  }

  lemma DisclaimerPhrasesWellFormed()
    ensures WellFormedPhrases(DisclaimerPhrases)
  {
  }

  /** `d` is one whole clause opening with a phrase of `ps`: the phrase,
      then anything but a clause end, then the clause end. */
  predicate PhraseClause(d: string, ps: seq<string>) {
    && |d| > 0
    && IsClauseEnd(d[|d| - 1])
    && (forall m :: 0 <= m < |d| - 1 ==> NotClauseEnd(d[m]))
    && AnyMatchesAt(d, 0, ps)
  }

  /** A phrase without clause ends that matches at the front of `t` fits
      before any clause end of `t`. */
  lemma MatchBeforeEnd(t: string, k: string, e: nat)
    requires WellFormedPhrases([k]) && MatchesAt(t, 0, k)
    requires e < |t| && IsClauseEnd(t[e])
    ensures |k| <= e
  {
    assert |k| <= e;
  }

  /** Scanning from `j`, the first character failing `NotClauseEnd` is the
      clause end at `e`. */
  lemma LeadCountUpTo(t: string, j: nat, e: nat)
    requires j <= e < |t| && IsClauseEnd(t[e])
    requires forall m :: j <= m < e ==> NotClauseEnd(t[m])
    ensures j + LeadCount(t[j..], NotClauseEnd) == e
  {
    var c := LeadCount(t[j..], NotClauseEnd);
    assert t[j..][e - j] == t[e];
  }

  /** The match at the front of `d + rest` starts at a boundary and runs
      exactly to the end of `d`. */
  lemma {:induction false} ClauseMatchEnds(d: string, rest: string, ps: seq<string>)
    requires WellFormedPhrases(ps) && PhraseClause(d, ps)
    requires |rest| == 0 || !IsSpace(rest[0])
    ensures BoundaryAfter(false, d + rest)
    ensures PhraseLength(d + rest, ps) > 0
    ensures ClauseEnd(d + rest, PhraseLength(d + rest, ps)) == |d|
  {
    var t := d + rest;
    var k :| k in ps && |k| > 0 && MatchesAt(d, 0, k);
    assert t[0..|k|] == d[0..|k|];
    assert MatchesAt(t, 0, k);
    assert IsWord(t[0]) by {
      assert LowerStr(t[0..|k|])[0] == Lower(t[0]);
      assert IsWord(k[0]);
    }
    PhraseLengthMatches(t, ps);
    var n := PhraseLength(t, ps);
    var k2 :| k2 in ps && |k2| == n && MatchesAt(t, 0, k2);
    MatchBeforeEnd(t, k2, |d| - 1);
    LeadCountUpTo(t, n, |d| - 1);
    var b := |d|;
    assert t[b..] == rest;
  }

  /** A whole clause opening with a phrase of `ps`, at the front of the
      text, is removed by the substitution, which then goes on exactly as if
      the clause had never been there. */
  lemma {:induction false} ScrubDropsClause(d: string, rest: string, ps: seq<string>)
    requires WellFormedPhrases(ps) && PhraseClause(d, ps)
    requires |rest| == 0 || !IsSpace(rest[0])
    ensures Scrub(d + rest, false, ps) == Scrub(rest, false, ps)
  {
    ClauseMatchEnds(d, rest, ps);
    var t := d + rest;
    assert t[|d|..] == rest;
    assert t[|d| - 1] == d[|d| - 1];
  }

  /** A reply that opens with a whole "As an AI ..." clause loses exactly
      that clause. */
  lemma {:induction false} DebloatDropsDisclaimer(d: string, rest: string)
    requires PhraseClause(d, DisclaimerPhrases)
    requires |rest| == 0 || !IsSpace(rest[0])
    ensures Debloat(d + rest) == Debloat(rest)
  {
    DisclaimerPhrasesWellFormed();
    ScrubDropsClause(d, rest, DisclaimerPhrases);
  }
}

=== FILE: fallback.dfy ===
/** The post-processing of a language-model reply in the default branch of
    `/chat`: keep what follows the first "Assistant:" marker, cut at the
    first role marker the model went on to write, clean, fall back to
    "Got it." when nothing is left, remove disclaimers, and shorten to one
    sentence of at most 90 characters.
 */
module Fallback {
  import opened Chars
  import opened Text
  import opened Patterns
  import opened Cleaning
  import opened Debloating
  import opened Shortening

  const AssistantMarker: string := "Assistant:"

  /** The alternatives `User|USER|Assistant|ASSISTANT` of the split pattern;
      unlike the classifiers, this pattern is case-sensitive. */
  const RoleWords: seq<string> := ["User", "USER", "Assistant", "ASSISTANT"]

  /** The reply used when cleaning leaves nothing. */
  const EmptyReply: string := "Got it."

  /** The first occurrence of `pat` at or after `i`, or `|s|` if none. */
  function FindFrom(s: string, pat: string, i: nat): (k: nat)
    requires i <= |s|
    ensures i <= k <= |s|
    ensures k < |s| ==> OccursAt(s, k, pat)
    ensures forall j :: i <= j < k ==> !OccursAt(s, j, pat)
    decreases |s| - i
  {
    if i == |s| || OccursAt(s, i, pat) then i else FindFrom(s, pat, i + 1)
  }

  /** `out.split("Assistant:", 1)[-1]`: what follows the first marker, or
      the whole text when there is no marker. */
  function AfterMarker(out: string): (r: string)
    ensures |r| <= |out| && r == out[|out| - |r|..]
  {
    var k := FindFrom(out, AssistantMarker, 0);
    if k == |out| then out else out[k + |AssistantMarker|..]
  }

  /** With a marker in `out`, the reply is exactly what follows its first
      occurrence; without one, it is `out` itself. */
  lemma AfterMarkerSplits(out: string)
    ensures (forall j :: 0 <= j < |out| ==> !OccursAt(out, j, AssistantMarker)) ==> AfterMarker(out) == out
    ensures forall k :: 0 <= k < |out| && OccursAt(out, k, AssistantMarker)
              && (forall j :: 0 <= j < k ==> !OccursAt(out, j, AssistantMarker))
              ==> out == out[..k] + AssistantMarker + AfterMarker(out)
  {
    var f := FindFrom(out, AssistantMarker, 0);
    forall k | 0 <= k < |out| && OccursAt(out, k, AssistantMarker)
        && (forall j :: 0 <= j < k ==> !OccursAt(out, j, AssistantMarker))
      ensures out == out[..k] + AssistantMarker + AfterMarker(out)
    {
      assert f == k;
      assert out == out[..k] + out[k..k + |AssistantMarker|] + out[k + |AssistantMarker|..];
    }
  }

  /** One of the role words starts at `q`. */
  predicate RoleAt(s: string, q: int) {
    exists w :: w in RoleWords && OccursAt(s, q, w)
  }

  /** A match of `\s*(?:User|USER|Assistant|ASSISTANT)\s*:?` starts at `p`:
      whitespace from `p` up to a role word. The optional tail never
      changes where a match starts. */
  predicate SplitAt(s: string, p: int, q: int) {
    Spaces(s, p, q) && RoleAt(s, q)
  }

  /** The first position at or after `i` where a role word starts, or `|s|`. */
  function FirstRole(s: string, i: nat): (q: nat)
    requires i <= |s|
    ensures i <= q <= |s|
    ensures q < |s| ==> RoleAt(s, q)
    ensures forall j :: i <= j < q ==> !RoleAt(s, j)
    decreases |s| - i
  {
    if i == |s| || RoleAt(s, i) then i else FirstRole(s, i + 1)
  }

  /** `re.split(pattern, s, maxsplit=1)[0]`: the text before the first role
      marker and the whitespace in front of it. */
  function CutAtRole(s: string): (r: string)
    ensures IsPrefix(r, s)
  {
    var q := FirstRole(s, 0);
    if q == |s| then s else s[..q - TrailCount(s[..q], IsSpace)]
  }

  /** The cut is where the leftmost match of the split pattern starts: if a
      match starts at `p` and none starts earlier, the reply is `s[..p]`. */
  lemma {:induction false} CutAtLeftmostMatch(s: string, p: nat, q: nat)
    requires SplitAt(s, p, q)
    requires forall p', q' :: 0 <= p' < p && p' <= q' <= |s| ==> !SplitAt(s, p', q')
    ensures CutAtRole(s) == s[..p]
  {
    var f := FirstRole(s, 0);
    assert f <= q;
    assert q < |s| by {
      var w :| w in RoleWords && OccursAt(s, q, w);
    }
    var t := TrailCount(s[..f], IsSpace);
    var p0 := f - t;
    assert Spaces(s, p0, f) by {
      assert forall m :: p0 <= m < f ==> s[m] == s[..f][m];
    }
    assert SplitAt(s, p0, f);
    assert p0 == p;
  }

  /** Without any role word the reply is kept whole. */
  lemma CutWithoutRole(s: string)
    requires forall q :: 0 <= q < |s| ==> !RoleAt(s, q)
    ensures CutAtRole(s) == s
  {
  }

  /** After the cut, no role word is left in the reply. */
  lemma {:induction false} CutLeavesNoRole(s: string)
    ensures forall j :: 0 <= j < |CutAtRole(s)| ==> !RoleAt(CutAtRole(s), j)
  {
    var r := CutAtRole(s);
    var f := FirstRole(s, 0);
    forall j | 0 <= j < |r| ensures !RoleAt(r, j) {
      RoleAtPrefix(r, s, j);
    }
  }

  /** A role word in a prefix of `s` is a role word in `s`. */
  lemma RoleAtPrefix(r: string, s: string, j: int)
    requires IsPrefix(r, s)
    ensures RoleAt(r, j) ==> RoleAt(s, j)
  {
    forall w | w in RoleWords && OccursAt(r, j, w) ensures OccursAt(s, j, w) {
      assert s[j..j + |w|] == r[j..j + |w|];
    }
  }

  /** The whole default-branch post-processing of the model output `out`. */
  function FallbackAnswer(out: string): (r: string)
    ensures |r| <= 93
  {
    var c := CleanAnswer(CutAtRole(AfterMarker(out)));
    Shorten(Debloat(if c == "" then EmptyReply else c), 1, 90)
  }

  /** When cleaning leaves nothing, the reply is "Got it": the period of the
      fallback text falls to the punctuation trim. */
  lemma FallbackWhenNothingLeft(out: string)
    requires CleanAnswer(CutAtRole(AfterMarker(out))) == ""
    ensures FallbackAnswer(out) == "Got it"
  {
    GotItDebloated();
    GotItShortened();
  }

  lemma GotItDebloated()
    ensures Debloat(EmptyReply) == "Got it"
  {
    var s := EmptyReply;
    PhrasesAreLong();
    ShortTextNoMatch(s, DisclaimerPhrases);
    ShortTextNoMatch(s, NoPreferencePhrases);
    DebloatNoDisclaimer(s);
    GotItTrimmed();
  }

  lemma PhrasesAreLong()
    ensures forall k :: k in DisclaimerPhrases ==> |k| > |EmptyReply|
    ensures forall k :: k in NoPreferencePhrases ==> |k| > |EmptyReply|
  {
  }

  /** No phrase fits into a text shorter than every phrase. */
  lemma ShortTextNoMatch(s: string, ps: seq<string>)
    requires forall k :: k in ps ==> |k| > |s|
    ensures NoMatchFrom(s, 0, ps)
  {
  }

  lemma GotItTrimmed()
    ensures Strip(EmptyReply, IsLoosePunct) == "Got it"
  {
    var s := EmptyReply;
    assert LeadCount(s, IsLoosePunct) == 0;
    assert TrailCount(s, IsLoosePunct) == 1 by {
      assert TrailCount(s[..6], IsLoosePunct) == 0;
    }
  }

  lemma GotItShortened()
    ensures Shorten("Got it", 1, 90) == "Got it"
  {
    var t := "Got it";
    assert NoBreak(t) by {
      forall j | 0 <= j < |t| ensures !IsBreak(t, j) {
        if 0 < j {
          assert !IsSentenceEnd(t[j - 1]);
        }
      }
    }
    SentencesOfOne(t);
    ShortenWithinBudget(t, 1, 90);
  }

  /** The "Got it." fallback comes before the disclaimer filter, so a
      reply made only of a disclaimer clause ends up empty. */
  lemma FallbackCanBeEmpty()
    ensures FallbackAnswer("Assistant: As an AI.") == ""
  {
    var d := "As an AI.";
    DisclaimerExtracted();
    DisclaimerCleaned();
    DisclaimerClause();
    DebloatDropsDisclaimer(d, "");
    assert d + "" == d;
    assert Debloat("") == "";
  }

  lemma DisclaimerExtracted()
    ensures CutAtRole(AfterMarker("Assistant: As an AI.")) == " As an AI."
  {
    var out := "Assistant: As an AI.";
    var a := " As an AI.";
    MarkerAtFront(out);
    assert AfterMarker(out) == a;
    DisclaimerHasNoRole();
    CutWithoutRole(a);
  }

  lemma DisclaimerHasNoRole()
    ensures forall q :: 0 <= q < |" As an AI."| ==> !RoleAt(" As an AI.", q)
  {
    NoRoleWord(" As an AI.");
  }

  lemma DisclaimerCleaned()
    ensures CleanAnswer(" As an AI.") == "As an AI."
  {
    DisclaimerIsClean();
    SpaceThenDisclaimer();
    CleanAfterSpace("As an AI.");
  }

  lemma SpaceThenDisclaimer()
    ensures [' '] + "As an AI." == " As an AI."
  {
  }

  /** Clean text behind one space cleans to itself. */
  lemma CleanAfterSpace(d: string)
    requires IsClean(d) && (|d| == 0 || d[0] != ':')
    ensures CleanAnswer([' '] + d) == d
  {
    CleanIgnoresLeadingSpace(' ', d);
    CleanFixedPoint(d);
  }

  lemma MarkerAtFront(out: string)
    requires out == "Assistant: As an AI."
    ensures FindFrom(out, AssistantMarker, 0) == 0
  {
    assert out[0..|AssistantMarker|] == AssistantMarker;
  }

  /** No role word can start where there is no `U` and no `A` followed by
      `S` or by a second `s`. */
  lemma NoRoleWord(s: string)
    requires 'U' !in s
    requires forall q :: 0 <= q < |s| - 2 && s[q] == 'A' ==> s[q + 1] != 'S' && s[q + 2] != 's'
    ensures forall q :: 0 <= q < |s| ==> !RoleAt(s, q)
  {
    forall q, w | 0 <= q < |s| && w in RoleWords ensures !OccursAt(s, q, w) {
      OccursAtAgrees(s, q, w, 0);
      OccursAtAgrees(s, q, w, 1);
      OccursAtAgrees(s, q, w, 2);
    }
  }

  lemma DisclaimerIsClean()
    ensures IsClean("As an AI.")
  {
  }

  lemma DisclaimerClause()
    ensures PhraseClause("As an AI.", DisclaimerPhrases)
  {
    var d := "As an AI.";
    assert LowerStr(d[0..8]) == "as an ai";
    assert MatchesAt(d, 0, DisclaimerPhrases[0]);
  }
}

=== FILE: intents.dfy ===
/** The intent classifiers of the chat route (app.py:103-143 and the
    preference pattern at app.py:242).  Keyphrase and token rules are stated
    on normalised text; the regular expressions are stated as what a
    successful `re.search` means: a start position and a choice for every
    repetition and alternative such that each piece of the pattern matches.
 */
module Intents {
  import opened Chars
  import opened Text
  import opened Normalization
  import opened Phrases
  import opened Patterns

  // ---------------------------------------------------------------------
  // Time questions (app.py:103-114)

  const TimeKeyphrases: seq<string> := [
    "what time is it",
    "whats the time", "what s the time",
    "current time",
    "time now", "what time now", "what time right now",
    "tell me the time"
  ]

  /** `_is_time_question(text)`: some keyphrase, padded with spaces, occurs
      in the padded normalised text. */
  predicate IsTimeQuestion(text: string) {
    var padded := " " + Normalize(text) + " ";
    exists k | k in TimeKeyphrases :: Contains(padded, " " + k + " ")
  }

  lemma KeyphrasesCanonical1()
    ensures Canonical(TimeKeyphrases[0]) && Canonical(TimeKeyphrases[1])
    ensures Canonical(TimeKeyphrases[2]) && Canonical(TimeKeyphrases[3])
  {
  }

  lemma KeyphrasesCanonical2()
    ensures Canonical(TimeKeyphrases[4]) && Canonical(TimeKeyphrases[5])
    ensures Canonical(TimeKeyphrases[6]) && Canonical(TimeKeyphrases[7])
  {
  }

  /** A keyphrase is its own word list joined by spaces. */
  lemma KeyphraseWords(k: string)
    requires k in TimeKeyphrases
    ensures |Tokens(k)| > 0 && IsRunList(Tokens(k), NotSpace)
    ensures " " + k + " " == Padded(Tokens(k))
  {
    KeyphrasesCanonical1();
    KeyphrasesCanonical2();
    CanonicalTokens(k);
    NormalizeIsJoinOfTokens(k);
    TokensAreLowerWords(k);
    PaddedJoin(Tokens(k));
  }

  /** A message is a time question exactly when the words of some keyphrase
      occur, contiguously and in order, among the message's lower-cased
      words. */
  lemma TimeQuestionByWords(text: string)
    ensures IsTimeQuestion(text)
      <==> exists k :: k in TimeKeyphrases && HasSublist(Tokens(text), Tokens(k))
  {
    var ws := Tokens(text);
    var padded := " " + Normalize(text) + " ";
    NormalizeIsJoinOfTokens(text);
    TokensAreLowerWords(text);
    forall k | k in TimeKeyphrases
      ensures Contains(padded, " " + k + " ") <==> HasSublist(ws, Tokens(k))
    {
      KeyphraseWords(k);
      if |ws| == 0 {
        assert |padded| == 2;
      } else {
        PaddedJoin(ws);
        PaddedContains(ws, Tokens(k));
      }
    }
  }

  /** The test looks at nothing but the normalised text. */
  lemma TimeQuestionOfNormalized(text: string)
    ensures IsTimeQuestion(Normalize(text)) <==> IsTimeQuestion(text)
  {
    NormalizeIdempotent(text);
  }

  lemma WhatTimeIsItLower()
    ensures LowerStr("What time is it?") == "what time is it" + "?"
  {
  }

  lemma WhatTimeIsItJoin()
    ensures Join(["what", "time", "is", "it"]) == "what time is it"
    ensures IsRunList(["what", "time", "is", "it"], IsWord)
    ensures IsRunList(["what", "time", "is", "it"], NotSpace)
  {
  }

  lemma WhatTimeIsItWords()
    ensures Tokens("What time is it?") == ["what", "time", "is", "it"]
  {
    var ws := ["what", "time", "is", "it"];
    WhatTimeIsItLower();
    WhatTimeIsItJoin();
    RunsConcat("what time is it", "?", IsWord);
    RunsOfJoin(ws, IsWord);
    RunsEmpty("?", IsWord);
  }

  lemma WhatTimeIsItKeyphrase()
    ensures Tokens(TimeKeyphrases[0]) == ["what", "time", "is", "it"]
  {
    WhatTimeIsItJoin();
    assert LowerStr("what time is it") == "what time is it";
    RunsOfJoin(["what", "time", "is", "it"], IsWord);
  }

  /** The words of a keyphrase among the message's words make it a time
      question. */
  lemma TimeQuestionOfWords(text: string, k: string)
    requires k in TimeKeyphrases && HasSublist(Tokens(text), Tokens(k))
    ensures IsTimeQuestion(text)
  {
    TimeQuestionByWords(text);
  }

  lemma SublistOfItself(ws: seq<string>)
    ensures HasSublist(ws, ws)
  {
    assert SublistAt(ws, ws, 0);
  }

  lemma WhatTimeIsIt()
    ensures IsTimeQuestion("What time is it?")
  {
    WhatTimeIsItWords();
    WhatTimeIsItKeyphrase();
    SublistOfItself(["what", "time", "is", "it"]);
    TimeQuestionOfWords("What time is it?", TimeKeyphrases[0]);
  }

  // ---------------------------------------------------------------------
  // Greetings (app.py:116-134)

  const Interrogatives: set<string> := {
    "what", "why", "when", "where", "which", "how", "hows", "do", "does", "did", "is", "are", "am",
    "can", "could", "would", "should", "will", "shall"
  }

  const GreetStarts: set<string> := {"hi", "hello", "hey", "yo", "hiya"}

  /** `_is_greeting(text)`, branch for branch. */
  predicate IsGreeting(text: string) {
    var raw := LowerStr(Strip(text, IsSpace));
    if '?' in raw then false
    else
      var toks := Runs(Normalize(raw), NotSpace);
      if |toks| == 0 || |toks| > 3 then false
      else if exists w | w in toks :: w in Interrogatives then false
      else if Join(toks) == "how are you" then true
      else toks[0] in GreetStarts
  }

  /** Stripping and lower-casing neither add nor remove a question mark. */
  lemma QuestionMarkKept(text: string)
    ensures '?' in LowerStr(Strip(text, IsSpace)) <==> '?' in text
  {
    var d := LeadCount(text, IsSpace);
    var r := Strip(text, IsSpace);
    var l := LowerStr(r);
    if '?' in l {
      var j :| 0 <= j < |l| && l[j] == '?';
      assert text[d + j] == r[j];
    }
    if '?' in text {
      var j :| 0 <= j < |text| && text[j] == '?';
      assert !IsSpace(text[j]);
      assert r[j - d] == text[j];
      assert l[j - d] == '?';
    }
  }

  lemma HowAreYouSplit()
    ensures Runs("how are you", NotSpace) == ["how", "are", "you"]
  {
    assert Join(["how", "are", "you"]) == "how are you";
    RunsOfJoin(["how", "are", "you"], NotSpace);
  }

  /** Words that join to "how are you" are exactly those three words. */
  lemma HowAreYouWords(toks: seq<string>)
    requires IsRunList(toks, NotSpace)
    requires Join(toks) == "how are you"
    ensures toks == ["how", "are", "you"]
  {
    RunsOfJoin(toks, NotSpace);
    HowAreYouSplit();
  }

  /** A greeting is a message without a question mark whose one to three
      words include no question or auxiliary word and start with a greeting
      word.  The "how are you" branch never decides anything: those words
      are already rejected as interrogatives. */
  lemma GreetingByWords(text: string)
    ensures IsGreeting(text) <==>
      && '?' !in text
      && 1 <= |Tokens(text)| <= 3
      && (forall w :: w in Tokens(text) ==> w !in Interrogatives)
      && Tokens(text)[0] in GreetStarts
  {
    var raw := LowerStr(Strip(text, IsSpace));
    var toks := Runs(Normalize(raw), NotSpace);
    QuestionMarkKept(text);
    SplitNormalize(raw);
    TokensOfStripLower(text);
    assert toks == Tokens(text);
    TokensAreLowerWords(text);
    if Join(toks) == "how are you" {
      HowAreYouWords(toks);
      assert "how" in toks;
    }
  }

  lemma HiWords()
    ensures Tokens("Hi") == ["hi"]
  {
    assert LowerStr("Hi") == "hi";
    RunsSingle("hi", IsWord);
  }

  lemma HiStartsGreeting()
    ensures "hi" in GreetStarts && "hi" !in Interrogatives
  {
  }

  /** A one-word message without a question mark is a greeting exactly when
      its word is a greeting word and not a question word. */
  lemma GreetingOfOneWord(text: string, w: string)
    requires '?' !in text && Tokens(text) == [w]
    requires w in GreetStarts && w !in Interrogatives
    ensures IsGreeting(text)
  {
    GreetingByWords(text);
  }

  lemma HiIsGreeting()
    ensures IsGreeting("Hi")
  {
    HiWords();
    HiStartsGreeting();
    GreetingOfOneWord("Hi", "hi");
  }

  lemma HowAreYouWordsOfText()
    ensures Tokens("how are you") == ["how", "are", "you"]
  {
    assert Join(["how", "are", "you"]) == "how are you";
    assert LowerStr("how are you") == "how are you";
    RunsOfJoin(["how", "are", "you"], IsWord);
  }

  /** "how are you" is not treated as a greeting (it reaches the fallback,
      where the small-talk override answers it). */
  lemma HowAreYouIsNotGreeting()
    ensures !IsGreeting("how are you")
  {
    HowAreYouWordsOfText();
    GreetingByWords("how are you");
  }

  lemma QuestionIsNotGreeting(text: string)
    requires '?' in text
    ensures !IsGreeting(text)
  {
    QuestionMarkKept(text);
  }

  // ---------------------------------------------------------------------
  // Case-insensitive keywords with word boundaries (app.py:136, 139-140)

  const MovieKeywords: seq<string> := ["recommend", "suggest", "watch", "try", "movie", "film"]

  /** `_is_movie_intent(text)`: `re.search` finds one of the keywords as a
      whole word, in any case. */
  predicate IsMovieIntent(text: string) {
    exists i, k | 0 <= i <= |text| && k in MovieKeywords :: WordAt(text, i, k)
  }

  lemma WordAtIsolated(s: string, i: int, k: string)
    requires IsRun(k, IsLowerWord) && WordAt(s, i, k)
    ensures IsolatedIn(LowerStr(s), LowerStr(s)[..i], k, LowerStr(s)[i + |k|..], IsWord)
  {
    var l := LowerStr(s);
    LowerStrSlice(s, i, i + |k|);
    assert l == l[..i] + l[i..i + |k|] + l[i + |k|..];
    assert IsWord(s[i]) by {
      assert Lower(s[i]) == k[0];
    }
    assert IsWord(s[i + |k| - 1]) by {
      assert Lower(s[i + |k| - 1]) == k[|k| - 1];
    }
    assert IsRun(k, IsWord);
  }

  lemma IsolatedWordAt(s: string, u: string, k: string, v: string)
    requires IsRun(k, IsLowerWord) && IsolatedIn(LowerStr(s), u, k, v, IsWord)
    ensures WordAt(s, |u|, k)
  {
    var l := LowerStr(s);
    var i := |u|;
    assert l[i..i + |k|] == k;
    LowerStrSlice(s, i, i + |k|);
    assert IsWord(s[i]) by {
      assert Lower(s[i]) == k[0];
    }
    assert IsWord(s[i + |k| - 1]) by {
      assert Lower(s[i + |k| - 1]) == k[|k| - 1];
    }
    if i > 0 {
      assert l[i - 1] == u[|u| - 1];
    }
    if i + |k| < |s| {
      assert l[i + |k|] == v[0];
    }
  }

  /** `\bk\b` matches somewhere, in any case, exactly when `k` is one of the
      text's lower-cased words. */
  lemma WordAtToken(s: string, k: string)
    requires IsRun(k, IsLowerWord)
    ensures (exists i :: WordAt(s, i, k)) <==> k in Tokens(s)
  {
    if exists i :: WordAt(s, i, k) {
      var i :| WordAt(s, i, k);
      WordAtIsToken(s, i, k);
    }
    if k in Tokens(s) {
      var i := TokenIsWordAt(s, k);
    }
  }

  lemma WordAtIsToken(s: string, i: int, k: string)
    requires IsRun(k, IsLowerWord) && WordAt(s, i, k)
    ensures k in Tokens(s)
  {
    var l := LowerStr(s);
    var u, v := l[..i], l[i + |k|..];
    WordAtIsolated(s, i, k);
    RunsOfIsolated(u, k, v, IsWord);
    assert Runs(l, IsWord)[|Runs(u, IsWord)|] == k;
  }

  lemma TokenIsWordAt(s: string, k: string) returns (i: int)
    requires IsRun(k, IsLowerWord) && k in Tokens(s)
    ensures WordAt(s, i, k)
  {
    RunsMembers(LowerStr(s), IsWord, k);
    var u, v :| IsolatedIn(LowerStr(s), u, k, v, IsWord);
    IsolatedWordAt(s, u, k, v);
    i := |u|;
  }

  lemma MovieKeywordsAreWords()
    ensures forall k :: k in MovieKeywords ==> IsRun(k, IsLowerWord)
  {
  }

  /** A message has movie intent exactly when one of its words is a movie
      keyword. */
  lemma MovieIntentByWords(text: string)
    ensures IsMovieIntent(text) <==> exists k :: k in MovieKeywords && k in Tokens(text)
  {
    MovieKeywordsAreWords();
    forall k | k in MovieKeywords
      ensures (exists i :: WordAt(text, i, k)) <==> k in Tokens(text)
    {
      WordAtToken(text, k);
    }
    if exists k :: k in MovieKeywords && k in Tokens(text) {
      var k :| k in MovieKeywords && k in Tokens(text);
      var i :| WordAt(text, i, k);
      assert 0 <= i <= |text|;
    }
  }

  lemma AnyGoodMovie()
    ensures IsMovieIntent("Any good movie?")
  {
    var s := "Any good movie?";
    assert s[9..14] == "movie";
    assert LowerStr("movie") == "movie";
    assert WordAt(s, 9, "movie");
  }

  lemma FilmsWords()
    ensures Tokens("I like films") == ["i", "like", "films"]
  {
    assert Join(["i", "like", "films"]) == "i like films";
    assert LowerStr("I like films") == "i like films";
    RunsOfJoin(["i", "like", "films"], IsWord);
  }

  lemma FilmsHasNoKeyword(ws: seq<string>)
    requires ws == ["i", "like", "films"]
    ensures forall k :: k in MovieKeywords ==> k !in ws
  {
    forall k | k in MovieKeywords ensures k !in ws {
      assert |k| != 1 || k == "try";
      assert k != "like" && k != "films";
    }
  }

  lemma NoKeywordNoMovieIntent(text: string)
    requires forall k :: k in MovieKeywords ==> k !in Tokens(text)
    ensures !IsMovieIntent(text)
  {
    MovieIntentByWords(text);
  }

  /** "films" is not the keyword "film": the pattern needs a word boundary
      after the keyword. */
  lemma FilmsIsNotMovieIntent()
    ensures !IsMovieIntent("I like films")
  {
    FilmsWords();
    FilmsHasNoKeyword(["i", "like", "films"]);
    NoKeywordNoMovieIntent("I like films");
  }

  // ---------------------------------------------------------------------
  // Follow-up questions about the last recommendation (app.py:137, 142-143)

  const ChoiceVerbs: seq<string> := ["choose", "pick", "recommend"]
  const Demonstratives: seq<string> := ["that", "this"]

  /** First alternative: `why.*(choose|pick|recommend).*(that|this)\s*movie`
      matched with "why" at `i`, verb `v` at `a`, demonstrative `d` at `b` and
      "movie" at `c`, followed by a word boundary. */
  predicate WhyChoseThatMovieAt(s: string, i: int, a: int, v: string, b: int, d: string, c: int) {
    && Boundary(s, i) && MatchesAt(s, i, "why")
    && NoNewline(s, i + 3, a) && v in ChoiceVerbs && MatchesAt(s, a, v)
    && NoNewline(s, a + |v|, b) && d in Demonstratives && MatchesAt(s, b, d)
    && Spaces(s, b + |d|, c) && MatchesAt(s, c, "movie") && Boundary(s, c + 5)
  }

  /** Second alternative: `why\s+that\s+movie` with "why" at `i`, "that" at
      `a` and "movie" at `c`, followed by a word boundary. */
  predicate WhyThatMovieAt(s: string, i: int, a: int, c: int) {
    && Boundary(s, i) && MatchesAt(s, i, "why")
    && i + 3 < a && Spaces(s, i + 3, a) && MatchesAt(s, a, "that")
    && a + 4 < c && Spaces(s, a + 4, c) && MatchesAt(s, c, "movie") && Boundary(s, c + 5)
  }

  predicate WhyChoseThatMovie(text: string) {
    exists i, a, v, b, d, c | 0 <= i <= a <= b <= c <= |text| && v in ChoiceVerbs && d in Demonstratives
      :: WhyChoseThatMovieAt(text, i, a, v, b, d, c)
  }

  predicate WhyThatMovie(text: string) {
    exists i, a, c | 0 <= i <= a <= c <= |text| :: WhyThatMovieAt(text, i, a, c)
  }

  /** `_refers_previous_movie(text)`: the pattern matches somewhere. */
  predicate RefersPreviousMovie(text: string) {
    WhyChoseThatMovie(text) || WhyThatMovie(text)
  }

  lemma MatchesAtOccurs(s: string, i: int, k: string)
    requires MatchesAt(s, i, k)
    ensures OccursAt(LowerStr(s), i, k)
  {
    LowerStrSlice(s, i, i + |k|);
  }

  /** Only a text that holds "why" and, later, "movie" (in any case) can
      refer to the previous recommendation. */
  lemma RefersNeedsWhyAndMovie(text: string)
    requires RefersPreviousMovie(text)
    ensures exists i, c :: i < c && OccursAt(LowerStr(text), i, "why") && OccursAt(LowerStr(text), c, "movie")
  {
    if WhyChoseThatMovie(text) {
      WhyChoseMentions(text);
    } else {
      WhyThatMentions(text);
    }
  }

  lemma WhyChoseMentions(text: string)
    requires WhyChoseThatMovie(text)
    ensures exists i, c :: i < c && OccursAt(LowerStr(text), i, "why") && OccursAt(LowerStr(text), c, "movie")
  {
    forall i, a, v, b, d, c | 0 <= i <= a <= b <= c <= |text| && v in ChoiceVerbs && d in Demonstratives
       && WhyChoseThatMovieAt(text, i, a, v, b, d, c)
      ensures exists i, c :: i < c && OccursAt(LowerStr(text), i, "why") && OccursAt(LowerStr(text), c, "movie")
    {
      WhyBeforeMovie(text, i, c);
    }
  }

  lemma WhyThatMentions(text: string)
    requires WhyThatMovie(text)
    ensures exists i, c :: i < c && OccursAt(LowerStr(text), i, "why") && OccursAt(LowerStr(text), c, "movie")
  {
    var i, a, c :| 0 <= i <= a <= c <= |text| && WhyThatMovieAt(text, i, a, c);
    WhyBeforeMovie(text, i, c);
  }

  lemma WhyBeforeMovie(text: string, i: int, c: int)
    requires i < c && MatchesAt(text, i, "why") && MatchesAt(text, c, "movie")
    ensures OccursAt(LowerStr(text), i, "why") && OccursAt(LowerStr(text), c, "movie")
  {
    MatchesAtOccurs(text, i, "why");
    MatchesAtOccurs(text, c, "movie");
  }

  lemma WhyPickThatMovieRefers()
    ensures RefersPreviousMovie("Why did you pick that movie?")
  {
    var s := "Why did you pick that movie?";
    assert LowerStr(s[0..3]) == "why";
    assert LowerStr(s[12..16]) == "pick";
    assert LowerStr(s[17..21]) == "that";
    assert LowerStr(s[22..27]) == "movie";
    assert NoNewline(s, 3, 12) && NoNewline(s, 16, 17) && Spaces(s, 21, 22);
    assert WhyChoseThatMovieAt(s, 0, 12, "pick", 17, "that", 22);
  }

  lemma WhyThatMovieRefers()
    ensures RefersPreviousMovie("why that movie")
  {
    var s := "why that movie";
    assert s[0..3] == "why" && s[4..8] == "that" && s[9..14] == "movie";
    assert Spaces(s, 3, 4) && Spaces(s, 8, 9);
    assert WhyThatMovieAt(s, 0, 4, 9);
  }

  // ---------------------------------------------------------------------
  // Preference questions (app.py:242)

  const FavouriteWords: seq<string> := ["favorite", "favourite"]

  /** `.?` at position `p`, taking `g` characters. */
  predicate OptionalChar(s: string, p: int, g: int) {
    g == 0 || (g == 1 && 0 <= p < |s| && s[p] != '\n')
  }

  /** Second alternative: `what.?do.?you.?like` with "what" at `i` and the
      three optional characters taking `g1`, `g2` and `g3` characters,
      followed by a word boundary. */
  predicate WhatDoYouLikeAt(s: string, i: int, g1: int, g2: int, g3: int) {
    && Boundary(s, i) && MatchesAt(s, i, "what")
    && OptionalChar(s, i + 4, g1) && MatchesAt(s, i + 4 + g1, "do")
    && OptionalChar(s, i + 6 + g1, g2) && MatchesAt(s, i + 6 + g1 + g2, "you")
    && OptionalChar(s, i + 9 + g1 + g2, g3) && MatchesAt(s, i + 9 + g1 + g2 + g3, "like")
    && Boundary(s, i + 13 + g1 + g2 + g3)
  }

  /** The preference pattern `\bfavou?rite\b|\bwhat.?do.?you.?like\b`
      matches somewhere. */
  predicate AsksPreference(text: string) {
    || (exists i, k | 0 <= i <= |text| && k in FavouriteWords :: WordAt(text, i, k))
    || (exists i, g1, g2, g3 | 0 <= i <= |text| && 0 <= g1 <= 1 && 0 <= g2 <= 1 && 0 <= g3 <= 1
         :: WhatDoYouLikeAt(text, i, g1, g2, g3))
  }

  /** The first alternative holds exactly when "favorite" or "favourite" is
      one of the text's words. */
  lemma PreferenceByWords(text: string)
    ensures AsksPreference(text) <==>
      || "favorite" in Tokens(text) || "favourite" in Tokens(text)
      || (exists i, g1, g2, g3 | 0 <= i <= |text| && 0 <= g1 <= 1 && 0 <= g2 <= 1 && 0 <= g3 <= 1
           :: WhatDoYouLikeAt(text, i, g1, g2, g3))
  {
    FavouriteByWords(text);
  }

  lemma FavouriteByWords(text: string)
    ensures (exists i, k | 0 <= i <= |text| && k in FavouriteWords :: WordAt(text, i, k))
      <==> "favorite" in Tokens(text) || "favourite" in Tokens(text)
  {
    FavouriteWordToken(text, "favorite");
    FavouriteWordToken(text, "favourite");
    if exists i, k | 0 <= i <= |text| && k in FavouriteWords :: WordAt(text, i, k) {
      var i, k :| 0 <= i <= |text| && k in FavouriteWords && WordAt(text, i, k);
      assert k == "favorite" || k == "favourite";
    }
  }

  lemma FavouriteWordToken(text: string, k: string)
    requires k in FavouriteWords
    ensures k in Tokens(text) <==> exists i | 0 <= i <= |text| :: WordAt(text, i, k)
  {
    assert IsRun(k, IsLowerWord);
    WordAtToken(text, k);
  }

  lemma WhatDoYouLike()
    ensures AsksPreference("What do you like?")
  {
    var s := "What do you like?";
    assert LowerStr(s[0..4]) == "what";
    assert s[5..7] == "do" && s[8..11] == "you" && s[12..16] == "like";
    assert OptionalChar(s, 4, 1) && OptionalChar(s, 7, 1) && OptionalChar(s, 11, 1);
    assert WhatDoYouLikeAt(s, 0, 1, 1, 1);
  }
}

=== FILE: normalize.dfy ===
/** `_normalize` (app.py): lower-case the text, replace every run of
    non-word characters by one space, collapse whitespace runs to one space
    and strip the ends.  The result is the text's lower-cased word runs
    joined by single spaces.
 */
module Normalization {
  import opened Chars
  import opened Text

  /** `re.sub(r"[class]+", " ", s)`: every maximal run of `p`-characters
      becomes a single space; everything else is copied. */
  function ReplaceRuns(s: string, p: char -> bool): string
    decreases |s|
  {
    if |s| == 0 then ""
    else if p(s[0]) then " " + ReplaceRuns(DropWhile(s, p), p)
    else [s[0]] + ReplaceRuns(s[1..], p)
  }

  /** `_normalize(s)`, app.py:97-101. */
  function Normalize(s: string): string {
    var lowered := LowerStr(s);
    var worded := ReplaceRuns(lowered, NotWord);
    var collapsed := ReplaceRuns(worded, IsSpace);
    Strip(collapsed, IsSpace)
  }

  /** The lower-cased word runs of `s`: what `re.findall(r"\w+", s.lower())` returns. */
  function Tokens(s: string): seq<string> {
    Runs(LowerStr(s), IsWord)
  }

  predicate IsLowerWord(c: char) {
    IsWord(c) && !IsUpper(c)
  }

  /** Lower-case word characters separated by single spaces, with no space
      at either end. */
  ghost predicate Canonical(t: string) {
    && (forall i :: 0 <= i < |t| ==> t[i] == ' ' || IsLowerWord(t[i]))
    && (|t| > 0 ==> t[0] != ' ' && t[|t| - 1] != ' ')
    && (forall i :: 0 <= i < |t| - 1 && t[i] == ' ' ==> t[i + 1] != ' ')
  }

  /** Word characters and single spaces (ends unconstrained): the shape of
      the text after the first substitution. */
  ghost predicate SingleSpaced(y: string) {
    && (forall i :: 0 <= i < |y| ==> y[i] == ' ' || IsWord(y[i]))
    && (forall i :: 0 <= i < |y| - 1 && y[i] == ' ' ==> y[i + 1] != ' ')
  }

  // ---------------------------------------------------------------------
  // Characterisation: Normalize(s) == Join(Tokens(s))

  lemma {:induction false} ReplaceRunsKeeps(w: string, z: string, p: char -> bool)
    requires forall i :: 0 <= i < |w| ==> !p(w[i])
    ensures ReplaceRuns(w + z, p) == w + ReplaceRuns(z, p)
    decreases |w|
  {
    if |w| > 0 {
      assert (w + z)[0] == w[0];
      assert (w + z)[1..] == w[1..] + z;
      ReplaceRunsKeeps(w[1..], z, p);
      assert w == [w[0]] + w[1..];
    } else {
      assert w + z == z;
    }
  }

  lemma ReplaceRunsHead(s: string, p: char -> bool)
    requires |s| > 0
    ensures |ReplaceRuns(s, p)| > 0
    ensures ReplaceRuns(s, p)[0] == if p(s[0]) then ' ' else s[0]
  {
  }

  lemma {:induction false} WordRunsAreSingleSpaced(x: string)
    ensures SingleSpaced(ReplaceRuns(x, NotWord))
    decreases |x|
  {
    if |x| > 0 {
      var y := ReplaceRuns(x, NotWord);
      if NotWord(x[0]) {
        var x' := DropWhile(x, NotWord);
        WordRunsAreSingleSpaced(x');
        var y' := ReplaceRuns(x', NotWord);
        assert y == " " + y';
        if |x'| > 0 {
          ReplaceRunsHead(x', NotWord);
          assert y'[0] == x'[0];
        }
        assert forall i :: 1 <= i < |y| ==> y[i] == y'[i - 1];
      } else {
        WordRunsAreSingleSpaced(x[1..]);
        var y' := ReplaceRuns(x[1..], NotWord);
        assert y == [x[0]] + y';
        assert forall i :: 1 <= i < |y| ==> y[i] == y'[i - 1];
      }
    }
  }

  lemma {:induction false} WordRunsKeepTokens(x: string)
    ensures Runs(ReplaceRuns(x, NotWord), IsWord) == Runs(x, IsWord)
    decreases |x|
  {
    if |x| > 0 {
      if NotWord(x[0]) {
        var n := LeadCount(x, NotWord);
        var x' := x[n..];
        assert x == x[..n] + x';
        RunsSkip(x[..n], x', IsWord);
        WordRunsKeepTokens(x');
        RunsSkip(" ", ReplaceRuns(x', NotWord), IsWord);
      } else {
        var n := LeadCount(x, IsWord);
        var w := x[..n];
        var z := x[n..];
        assert x == w + z;
        assert IsRun(w, IsWord);
        ReplaceRunsKeeps(w, z, NotWord);
        RunsWord(w, z, IsWord);
        var rz := ReplaceRuns(z, NotWord);
        if |z| > 0 {
          ReplaceRunsHead(z, NotWord);
        }
        RunsWord(w, rz, IsWord);
        WordRunsKeepTokens(z);
      }
    }
  }

  lemma SingleSpacedSuffix(y: string, k: nat)
    requires SingleSpaced(y) && k <= |y|
    ensures SingleSpaced(y[k..])
  {
    assert forall i :: 0 <= i < |y| - k ==> y[k..][i] == y[i + k];
  }

  lemma {:induction false} CollapseIsIdentity(y: string)
    requires SingleSpaced(y)
    ensures ReplaceRuns(y, IsSpace) == y
    decreases |y|
  {
    if |y| > 0 {
      SingleSpacedSuffix(y, 1);
      CollapseIsIdentity(y[1..]);
      if y[0] == ' ' {
        assert LeadCount(y, IsSpace) == 1 by {
          if |y| > 1 {
            assert !IsSpace(y[1]);
          }
        }
        assert DropWhile(y, IsSpace) == y[1..];
      }
      assert y == [y[0]] + y[1..];
    }
  }

  lemma TrailCountConcat(a: string, b: string, p: char -> bool)
    requires TrailCount(b, p) < |b|
    ensures TrailCount(a + b, p) == TrailCount(b, p)
    decreases |b|
  {
    var n := TrailCount(b, p);
    if n > 0 {
      assert (a + b)[..|a + b| - 1] == a + b[..|b| - 1];
      TrailCountConcat(a, b[..|b| - 1], p);
    }
  }

  lemma {:induction false} StripSingleSpaced(y: string)
    requires SingleSpaced(y)
    ensures Strip(y, IsSpace) == Join(Runs(y, IsWord))
    decreases |y|, 1
  {
    if |y| == 0 {
      RunsEmpty(y, IsWord);
    } else if y[0] == ' ' {
      StripSingleSpacedSpace(y);
    } else {
      StripSingleSpacedWord(y);
    }
  }

  lemma {:induction false} StripSingleSpacedSpace(y: string)
    requires SingleSpaced(y) && |y| > 0 && y[0] == ' '
    ensures Strip(y, IsSpace) == Join(Runs(y, IsWord))
    decreases |y|, 0
  {
    SingleSpacedSuffix(y, 1);
    StripSingleSpaced(y[1..]);
    StripSpaceThen(y);
  }

  lemma {:induction false} StripSingleSpacedWord(y: string)
    requires SingleSpaced(y) && |y| > 0 && y[0] != ' '
    ensures Strip(y, IsSpace) == Join(Runs(y, IsWord))
    decreases |y|, 0
  {
    var n := SplitFirstWord(y);
    if n == |y| {
      StripWordOnly(y);
    } else {
      SplitAtSpace(y, n);
      StripSingleSpaced(y[n + 1..]);
      StripWordThen(y[..n], y[n + 1..]);
    }
  }

  /** A single-spaced text that starts with a word character is a word,
      then either nothing or one space and a single-spaced rest that starts
      with a word character. */
  lemma SplitFirstWord(y: string) returns (n: nat)
    requires SingleSpaced(y) && |y| > 0 && y[0] != ' '
    ensures 0 < n <= |y| && IsRun(y[..n], IsWord)
    ensures n < |y| ==> y[n] == ' ' && SingleSpaced(y[n + 1..])
    ensures n + 1 < |y| ==> IsWord(y[n + 1])
  {
    n := LeadCount(y, IsWord);
    assert forall i :: 0 <= i < n ==> y[..n][i] == y[i];
    if n < |y| {
      SingleSpacedSuffix(y, n + 1);
    }
  }

  lemma SplitAtSpace(y: string, n: nat)
    requires n < |y| && y[n] == ' '
    ensures y == y[..n] + " " + y[n + 1..]
  {
  }

  lemma StripSpaceThen(y: string)
    requires |y| > 0 && y[0] == ' '
    requires Strip(y[1..], IsSpace) == Join(Runs(y[1..], IsWord))
    ensures Strip(y, IsSpace) == Join(Runs(y, IsWord))
  {
    assert y == " " + y[1..];
    StripLeading(' ', y[1..], IsSpace);
    RunsSkip(" ", y[1..], IsWord);
  }

  lemma StripWordOnly(w: string)
    requires IsRun(w, IsWord)
    ensures Strip(w, IsSpace) == w
    ensures Join(Runs(w, IsWord)) == w
  {
    assert LeadCount(w, IsSpace) == 0;
    assert TrailCount(w, IsSpace) == 0;
    RunsWord(w, "", IsWord);
    assert w + "" == w;
    RunsEmpty("", IsWord);
  }

  /** A word, a separator, then a single-spaced rest whose strip is already
      the join of its runs. */
  lemma StripWordThen(w: string, z: string)
    requires IsRun(w, IsWord)
    requires |z| > 0 ==> IsWord(z[0])
    requires Strip(z, IsSpace) == Join(Runs(z, IsWord))
    ensures Strip(w + " " + z, IsSpace) == Join(Runs(w + " " + z, IsWord))
  {
    RunsWordSpace(w, z);
    if |z| == 0 {
      StripWordSpaceEnd(w);
      RunsEmpty(z, IsWord);
      assert w + " " + z == w + " ";
    } else {
      StripWordSpace(w, z);
      RunsEmpty(z, IsWord);
      JoinCons(w, Runs(z, IsWord));
    }
  }

  lemma RunsWordSpace(w: string, z: string)
    requires IsRun(w, IsWord)
    ensures Runs(w + " " + z, IsWord) == [w] + Runs(z, IsWord)
  {
    assert w + " " + z == w + (" " + z);
    RunsWord(w, " " + z, IsWord);
    RunsSkip(" ", z, IsWord);
  }

  lemma StripWordSpaceEnd(w: string)
    requires IsRun(w, IsWord)
    ensures Strip(w + " ", IsSpace) == w
  {
    var x := w + " ";
    assert LeadCount(x, IsSpace) == 0;
    assert TrailCount(x, IsSpace) == 1 by {
      assert x[..|x| - 1] == w;
      assert TrailCount(w, IsSpace) == 0;
    }
  }

  /** Stripping a text that starts with a word and a separator only trims
      the part after the separator. */
  lemma StripWordSpace(w: string, z: string)
    requires IsRun(w, IsWord)
    requires |z| > 0 && !IsSpace(z[0])
    ensures Strip(w + " " + z, IsSpace) == w + " " + Strip(z, IsSpace)
  {
    var x := w + " " + z;
    assert x == (w + " ") + z;
    assert LeadCount(x, IsSpace) == 0;
    assert LeadCount(z, IsSpace) == 0;
    assert TrailCount(z, IsSpace) < |z|;
    TrailCountConcat(w + " ", z, IsSpace);
  }

  /** `_normalize(s)` is the text's lower-cased word runs joined by single
      spaces. */
  lemma NormalizeIsJoinOfTokens(s: string)
    ensures Normalize(s) == Join(Tokens(s))
  {
    var x := LowerStr(s);
    var y := ReplaceRuns(x, NotWord);
    WordRunsAreSingleSpaced(x);
    CollapseIsIdentity(y);
    StripSingleSpaced(y);
    WordRunsKeepTokens(x);
  }

  // ---------------------------------------------------------------------
  // Consequences

  lemma TokensAreLowerWords(s: string)
    ensures IsRunList(Tokens(s), IsWord)
    ensures IsRunList(Tokens(s), IsLowerWord)
    ensures IsRunList(Tokens(s), NotSpace)
  {
    RunsAreRuns(LowerStr(s), IsWord, IsLowerWord);
    RunsAreRuns(LowerStr(s), IsWord, NotSpace);
  }

  /** The output is lower-case word characters separated by single spaces,
      with no leading or trailing space. */
  lemma NormalizeIsCanonical(s: string)
    ensures Canonical(Normalize(s))
  {
    NormalizeIsJoinOfTokens(s);
    TokensAreLowerWords(s);
    JoinChars(Tokens(s), IsLowerWord);
  }

  /** The output is empty exactly when the input holds no word character;
      in particular blank input gives "". */
  lemma NormalizeEmpty(s: string)
    ensures Normalize(s) == "" <==> forall i :: 0 <= i < |s| ==> !IsWord(s[i])
  {
    NormalizeIsJoinOfTokens(s);
    TokensAreLowerWords(s);
    JoinChars(Tokens(s), IsLowerWord);
    RunsEmpty(LowerStr(s), IsWord);
  }

  /** `str.split()` of the normalised text gives back exactly its tokens. */
  lemma SplitNormalize(s: string)
    ensures Runs(Normalize(s), NotSpace) == Tokens(s)
  {
    NormalizeIsJoinOfTokens(s);
    TokensAreLowerWords(s);
    RunsOfJoin(Tokens(s), NotSpace);
  }

  /** A canonical text is its own token list joined. */
  lemma CanonicalTokens(t: string)
    requires Canonical(t)
    ensures Tokens(t) == Runs(t, IsWord)
    ensures Normalize(t) == t
  {
    assert LowerStr(t) == t;
    NormalizeIsJoinOfTokens(t);
    assert SingleSpaced(t);
    StripSingleSpaced(t);
    StripClean(t, IsSpace);
  }

  /** `_normalize` is idempotent. */
  lemma NormalizeIdempotent(s: string)
    ensures Normalize(Normalize(s)) == Normalize(s)
  {
    NormalizeIsCanonical(s);
    CanonicalTokens(Normalize(s));
  }

  // ---------------------------------------------------------------------
  // Case mapping and stripping commute

  /** `s.strip().lower() == s.lower().strip()`: case mapping neither makes
      nor unmakes whitespace. */
  lemma StripLower(s: string)
    ensures LowerStr(Strip(s, IsSpace)) == Strip(LowerStr(s), IsSpace)
  {
    var t := DropWhile(s, IsSpace);
    DropLower(s);
    TrimLower(t);
    assert Strip(s, IsSpace) == TrimEnd(t, IsSpace);
    assert Strip(LowerStr(s), IsSpace) == TrimEnd(DropWhile(LowerStr(s), IsSpace), IsSpace);
  }

  lemma DropLower(s: string)
    ensures DropWhile(LowerStr(s), IsSpace) == LowerStr(DropWhile(s, IsSpace))
  {
    LeadCountSame(s, LowerStr(s), IsSpace);
    LowerStrSlice(s, LeadCount(s, IsSpace), |s|);
  }

  lemma TrimLower(t: string)
    ensures TrimEnd(LowerStr(t), IsSpace) == LowerStr(TrimEnd(t, IsSpace))
  {
    TrailCountSame(t, LowerStr(t), IsSpace);
    LowerStrSlice(t, 0, |t| - TrailCount(t, IsSpace));
  }

  /** The words of a text do not depend on surrounding whitespace or on the
      case it was written in. */
  lemma TokensOfStripLower(s: string)
    ensures Tokens(LowerStr(Strip(s, IsSpace))) == Tokens(s)
  {
    StripLower(s);
    LowerStrIdempotent(Strip(s, IsSpace));
    RunsOfStrip(LowerStr(s), IsSpace, IsWord);
  }
}

=== FILE: patterns.dfy ===
/** The pieces of Python regular expressions the assistant uses, as
    predicates on a text and positions in it: word boundaries,
    case-insensitive literals, and runs of "any character but a line feed"
    or of whitespace.
 */
module Patterns {
  import opened Chars

  /** `\b` at position `j`: exactly one of the characters on either side is a
      word character (positions outside the text count as non-word). */
  predicate Boundary(s: string, j: int) {
    (0 < j <= |s| && IsWord(s[j - 1])) != (0 <= j < |s| && IsWord(s[j]))
  }

  /** The lower-case literal `k` matches at `i` under `re.IGNORECASE`. */
  predicate MatchesAt(s: string, i: int, k: string) {
    0 <= i && i + |k| <= |s| && LowerStr(s[i..i + |k|]) == k
  }

  /** `\bk\b` matches at `i`. */
  predicate WordAt(s: string, i: int, k: string) {
    MatchesAt(s, i, k) && Boundary(s, i) && Boundary(s, i + |k|)
  }

  /** `.*` over `s[i..j]`: no line feed in between. */
  predicate NoNewline(s: string, i: int, j: int) {
    0 <= i <= j <= |s| && forall m | i <= m < j :: s[m] != '\n'
  }

  /** `\s*` over `s[i..j]`. */
  predicate Spaces(s: string, i: int, j: int) {
    0 <= i <= j <= |s| && forall m | i <= m < j :: IsSpace(s[m])
  }

}

=== FILE: phrases.dfy ===
/** Phrase search over space-joined word lists: `" " + k + " "` occurs in
    `" " + text + " "` exactly when the words of `k` occur, contiguously and
    in order, among the words of `text`.  This is how keyphrase tests on
    normalised text behave.
 */
module Phrases {
  import opened Chars
  import opened Text

  /** `ks` occurs as a contiguous block of `ws`. */
  predicate HasSublist(ws: seq<string>, ks: seq<string>) {
    exists i | 0 <= i <= |ws| - |ks| :: SublistAt(ws, ks, i)
  }

  /** `ks` occurs in `ws` starting at index `i`. */
  predicate SublistAt(ws: seq<string>, ks: seq<string>, i: int) {
    0 <= i <= |ws| - |ks| && ws[i..i + |ks|] == ks
  }

  /** Every word preceded by a space, and one closing space: for a non-empty
      list this is `" " + " ".join(ws) + " "`. */
  function Padded(ws: seq<string>): (r: string)
    ensures |r| > 0 && r[0] == ' '
  {
    if |ws| == 0 then " " else " " + ws[0] + Padded(ws[1..])
  }

  lemma {:induction false} PaddedJoin(ws: seq<string>)
    requires |ws| > 0
    ensures " " + Join(ws) + " " == Padded(ws)
    decreases |ws|
  {
    if |ws| == 1 {
      assert Padded(ws[1..]) == " ";
    } else {
      PaddedJoin(ws[1..]);
      assert " " + Join(ws) + " " == " " + ws[0] + (" " + Join(ws[1..]) + " ");
    }
  }

  lemma PaddedLength(ws: seq<string>)
    requires |ws| > 0 && IsRunList(ws, NotSpace)
    ensures |Padded(ws)| >= 3
  {
    assert |ws[0]| > 0;
  }

  /** Two space-free words each followed by a space-led text: one is a
      prefix of the other exactly when the words agree and the rests are
      prefixes. */
  lemma WordPrefix(k: string, x: string, w: string, y: string)
    requires IsRun(k, NotSpace) && IsRun(w, NotSpace)
    requires |x| > 0 && x[0] == ' ' && |y| > 0 && y[0] == ' '
    ensures IsPrefix(k + x, w + y) <==> k == w && IsPrefix(x, y)
  {
    if |k| < |w| {
      assert (k + x)[|k|] == ' ' != w[|k|] == (w + y)[|k|];
      PrefixAgrees(k + x, w + y, |k|);
    } else if |k| > |w| {
      assert (w + y)[|w|] == ' ' != k[|w|] == (k + x)[|w|];
      PrefixAgrees(k + x, w + y, |w|);
    } else {
      if IsPrefix(k + x, w + y) {
        assert (w + y)[..|k + x|][..|k|] == k;
        assert (w + y)[..|k + x|][|k|..] == x;
      }
      if k == w && IsPrefix(x, y) {
        assert (w + y)[..|k + x|] == w + y[..|x|];
      }
    }
  }

  lemma SpacePrefix(x: string, y: string)
    ensures IsPrefix(" " + x, " " + y) <==> IsPrefix(x, y)
  {
    if IsPrefix(" " + x, " " + y) {
      assert (" " + y)[..|x| + 1][1..] == y[..|x|];
    }
    if IsPrefix(x, y) {
      assert (" " + y)[..|x| + 1] == " " + y[..|x|];
    }
  }

  lemma ListPrefix(ws: seq<string>, ks: seq<string>)
    requires |ws| > 0 && |ks| > 0
    ensures (|ks| <= |ws| && ws[..|ks|] == ks)
      <==> ws[0] == ks[0] && |ks| - 1 <= |ws| - 1 && ws[1..][..|ks| - 1] == ks[1..]
  {
    if |ks| <= |ws| && ws[..|ks|] == ks {
      assert ws[0] == ws[..|ks|][0];
      assert ws[1..][..|ks| - 1] == ws[..|ks|][1..];
    }
    if ws[0] == ks[0] && |ks| - 1 <= |ws| - 1 && ws[1..][..|ks| - 1] == ks[1..] {
      assert ws[..|ks|] == [ws[0]] + ws[1..][..|ks| - 1];
      assert ks == [ks[0]] + ks[1..];
    }
  }

  /** The padded form of `ks` starts the padded form of `ws` exactly when
      `ks` starts `ws`. */
  lemma {:induction false} PaddedPrefix(ws: seq<string>, ks: seq<string>)
    requires IsRunList(ws, NotSpace) && IsRunList(ks, NotSpace) && |ks| > 0
    ensures IsPrefix(Padded(ks), Padded(ws)) <==> |ks| <= |ws| && ws[..|ks|] == ks
    decreases |ks|
  {
    TailIsRunList(ks, NotSpace);
    PaddedLength(ks);
    if |ws| > 0 {
      TailIsRunList(ws, NotSpace);
      var x, y := Padded(ks[1..]), Padded(ws[1..]);
      assert Padded(ks) == " " + (ks[0] + x);
      assert Padded(ws) == " " + (ws[0] + y);
      SpacePrefix(ks[0] + x, ws[0] + y);
      WordPrefix(ks[0], x, ws[0], y);
      ListPrefix(ws, ks);
      if |ks| == 1 {
        assert x == " ";
        assert IsPrefix(x, y);
      } else {
        PaddedPrefix(ws[1..], ks[1..]);
      }
    }
  }

  lemma OccursShift(a: string, b: string, i: int, q: string)
    requires |a| <= i
    ensures OccursAt(a + b, i, q) <==> OccursAt(b, i - |a|, q)
  {
    if 0 <= i - |a| && i + |q| <= |a + b| {
      assert (a + b)[i..i + |q|] == b[i - |a|..i - |a| + |q|];
    }
  }

  lemma OccursAtZero(s: string, q: string)
    ensures OccursAt(s, 0, q) <==> IsPrefix(q, s)
  {
  }

  lemma SublistShift(ws: seq<string>, ks: seq<string>)
    requires |ws| > 0
    ensures HasSublist(ws, ks) <==> SublistAt(ws, ks, 0) || HasSublist(ws[1..], ks)
  {
    if HasSublist(ws, ks) {
      var i :| 0 <= i <= |ws| - |ks| && SublistAt(ws, ks, i);
      if i > 0 {
        assert ws[1..][i - 1..i - 1 + |ks|] == ks;
        assert SublistAt(ws[1..], ks, i - 1);
      }
    }
    if HasSublist(ws[1..], ks) {
      var i :| 0 <= i <= |ws[1..]| - |ks| && SublistAt(ws[1..], ks, i);
      assert ws[i + 1..i + 1 + |ks|] == ks;
      assert SublistAt(ws, ks, i + 1);
    }
  }

  /** `" " + k + " " in " " + text + " "`, on word lists. */
  lemma PaddedContains(ws: seq<string>, ks: seq<string>)
    requires IsRunList(ws, NotSpace) && IsRunList(ks, NotSpace) && |ks| > 0
    ensures Contains(Padded(ws), Padded(ks)) <==> HasSublist(ws, ks)
  {
    if Contains(Padded(ws), Padded(ks)) {
      PaddedContainsSublist(ws, ks);
    }
    if HasSublist(ws, ks) {
      SublistPaddedContains(ws, ks);
    }
  }

  lemma {:induction false} PaddedContainsSublist(ws: seq<string>, ks: seq<string>)
    requires IsRunList(ws, NotSpace) && IsRunList(ks, NotSpace) && |ks| > 0
    requires Contains(Padded(ws), Padded(ks))
    ensures HasSublist(ws, ks)
    decreases |ws|
  {
    var q := Padded(ks);
    PaddedLength(ks);
    var i :| 0 <= i <= |Padded(ws)| - |q| && OccursAt(Padded(ws), i, q);
    TailIsRunList(ws, NotSpace);
    var a := " " + ws[0];
    var rest := Padded(ws[1..]);
    assert Padded(ws) == a + rest;
    SublistShift(ws, ks);
    if i == 0 {
      OccursAtZero(Padded(ws), q);
      PaddedPrefix(ws, ks);
    } else if i < |a| {
      assert false;
    } else {
      OccursShift(a, rest, i, q);
      assert OccursAt(rest, i - |a|, q);
      PaddedContainsSublist(ws[1..], ks);
    }
  }

  lemma {:induction false} SublistPaddedContains(ws: seq<string>, ks: seq<string>)
    requires IsRunList(ws, NotSpace) && IsRunList(ks, NotSpace) && |ks| > 0
    requires HasSublist(ws, ks)
    ensures Contains(Padded(ws), Padded(ks))
    decreases |ws|
  {
    var q := Padded(ks);
    TailIsRunList(ws, NotSpace);
    SublistShift(ws, ks);
    if SublistAt(ws, ks, 0) {
      PaddedPrefix(ws, ks);
      OccursAtZero(Padded(ws), q);
      assert OccursAt(Padded(ws), 0, q);
    } else {
      var a := " " + ws[0];
      var rest := Padded(ws[1..]);
      assert Padded(ws) == a + rest;
      SublistPaddedContains(ws[1..], ks);
      var j :| 0 <= j <= |rest| - |q| && OccursAt(rest, j, q);
      OccursShift(a, rest, j + |a|, q);
      assert OccursAt(Padded(ws), j + |a|, q);
    }
  }
}

=== FILE: sessions.dfy ===
/** The in-memory session store behind `/chat`: a map from session id to a
    session holding the recent conversation and the last recommended movie
    title.
 */
module Sessions {

  datatype Option<T> = None | Some(value: T)

  datatype Role = User | Assistant

  /** One `(role, text)` entry of a session's history. */
  datatype Turn = Turn(role: Role, text: string)

  /** `{"history": [...], "last_reco": ...}` */
  datatype Session = Session(history: seq<Turn>, lastReco: Option<string>)

  type Store = map<string, Session>

  /** How many turns a session remembers. */
  const HistoryLimit: nat := 12

  /** Length of a generated session id: the first 12 hex digits of a UUID. */
  const IdLength: nat := 12

  /** A session as `_get_session` creates it. */
  const FreshSession: Session := Session([], None)

  predicate IsHexDigit(c: char) {
    ('0' <= c <= '9') || ('a' <= c <= 'f')
  }

  /** The shape of `uuid.uuid4().hex[:12]`. */
  predicate IsGeneratedId(s: string) {
    |s| == IdLength && forall i :: 0 <= i < |s| ==> IsHexDigit(s[i])
  }

  /** The last `n` entries of `s`, or all of them when there are fewer
      (`s[-n:]` for `n > 0`). */
  function LastN<T>(s: seq<T>, n: nat): (r: seq<T>)
    ensures |r| == if |s| <= n then |s| else n
    ensures r == s[|s| - |r|..]
  {
    if |s| <= n then s else s[|s| - n..]
  }

  /** `_push_history`: append, then keep only the newest `HistoryLimit`
      turns. */
  function PushHistory(sess: Session, role: Role, text: string): (r: Session)
    ensures r.lastReco == sess.lastReco
    ensures |sess.history| < HistoryLimit ==> r.history == sess.history + [Turn(role, text)]
    ensures Bounded(r)
    ensures |r.history| > 0 && r.history[|r.history| - 1] == Turn(role, text)
  {
    var h := sess.history + [Turn(role, text)];
    if |h| > HistoryLimit then sess.(history := h[|h| - HistoryLimit..])
    else sess.(history := h)
  }

  /** A session whose history respects the limit. */
  predicate Bounded(sess: Session) {
    |sess.history| <= HistoryLimit
  }

  /** After a push the history is exactly the newest `HistoryLimit` entries
      of the old history followed by the new turn, in order. */
  lemma PushIsWindow(sess: Session, role: Role, text: string)
    ensures PushHistory(sess, role, text).history == LastN(sess.history + [Turn(role, text)], HistoryLimit)
    ensures Bounded(PushHistory(sess, role, text))
  {
  }

  /** Two pushes keep the newest entries of the old history followed by
      both turns: the window slides over the whole conversation. */
  lemma {:induction false} PushTwice(sess: Session, t1: Turn, t2: Turn)
    ensures PushHistory(PushHistory(sess, t1.role, t1.text), t2.role, t2.text).history
         == LastN(sess.history + [t1, t2], HistoryLimit)
  {
    var h1 := PushHistory(sess, t1.role, t1.text).history;
    PushIsWindow(sess, t1.role, t1.text);
    PushIsWindow(PushHistory(sess, t1.role, t1.text), t2.role, t2.text);
    LastNAppend(sess.history + [t1], t2, HistoryLimit);
    assert sess.history + [t1] + [t2] == sess.history + [t1, t2];
  }

  /** Taking a window, appending, and taking a window again is one window
      over the whole sequence. */
  lemma LastNAppend<T>(s: seq<T>, x: T, n: nat)
    requires n > 0
    ensures LastN(LastN(s, n) + [x], n) == LastN(s + [x], n)
  {
    if |s| > n {
      assert (s + [x])[|s| + 1 - n..] == s[|s| + 1 - n..] + [x];
      assert (s[|s| - n..] + [x])[1..] == s[|s| + 1 - n..] + [x];
    }
  }

  /** What `_get_session` hands back: the id, the session, and the store
      after the call. */
  datatype Lookup = Lookup(id: string, session: Session, store: Store)

  /** The client's id names a live session. */
  predicate Known(store: Store, sid: Option<string>) {
    sid.Some? && sid.value != "" && sid.value in store
  }

  /** `_get_session(sid)`; `freshId` stands for the UUID the source draws
      when the id is missing, empty or unknown. */
  function GetSession(store: Store, sid: Option<string>, freshId: string): (r: Lookup)
    ensures r.id in r.store && r.store[r.id] == r.session
    ensures Known(store, sid) ==> r.id == sid.value && r.store == store
    ensures !Known(store, sid) ==> r.id == freshId && r.session == FreshSession
    ensures r.store.Keys == store.Keys + {r.id}
    ensures forall k :: k in store && k != r.id ==> r.store[k] == store[k]
  {
    if Known(store, sid) then Lookup(sid.value, store[sid.value], store)
    else Lookup(freshId, FreshSession, store[freshId := FreshSession])
  }

  /** Storing `sess` under `id`: the session dictionary is updated in place
      by the handler, so every other entry stays as it was. */
  function Save(store: Store, id: string, sess: Session): (r: Store)
    ensures r.Keys == store.Keys + {id}
    ensures id in r && r[id] == sess
    ensures forall k :: k in store && k != id ==> r[k] == store[k]
  {
    store[id := sess]
  }

  /** Looking up the id that was just handed out finds the same session and
      changes nothing more. */
  lemma GetSessionAgain(store: Store, sid: Option<string>, freshId: string, freshId2: string)
    requires freshId != ""
    ensures var r := GetSession(store, sid, freshId);
      GetSession(r.store, Some(r.id), freshId2) == Lookup(r.id, r.session, r.store)
  {
  }
}

=== FILE: shorten.dfy ===
/** `_shorten`: a reply is cut to its first few sentences and then to a
    character budget, ending in "..." when the budget cuts it.

    Sentences are the pieces `re.split(r"(?<=[.!?])\s+", t)` produces: the
    text is split at every whitespace run that directly follows `.`, `!` or
    `?`, and the whitespace run itself is dropped.
 */
module Shortening {
  import opened Chars
  import opened Text

  predicate IsSentenceEnd(c: char) {
    c == '.' || c == '!' || c == '?'
  }

  /** A match of `(?<=[.!?])\s+` starts at `j`. */
  predicate IsBreak(t: string, j: int) {
    0 < j < |t| && IsSentenceEnd(t[j - 1]) && IsSpace(t[j])
  }

  /** The first break at or after `j`, or `|t|` when there is none. */
  function NextBreak(t: string, j: nat): (k: nat)
    requires j <= |t|
    ensures j <= k <= |t|
    ensures k < |t| ==> IsBreak(t, k)
    ensures forall m :: j <= m < k ==> !IsBreak(t, m)
    decreases |t| - j
  {
    if j == |t| || IsBreak(t, j) then j else NextBreak(t, j + 1)
  }

  /** Where the text after the break at `k` resumes: past the whole
      whitespace run. */
  function AfterBreak(t: string, k: nat): (e: nat)
    requires IsBreak(t, k)
    ensures k < e <= |t|
  {
    assert t[k..][0] == t[k];
    k + LeadCount(t[k..], IsSpace)
  }

  /** The sentences of `t`, left to right. */
  function Sentences(t: string): (parts: seq<string>)
    ensures |parts| >= 1
    decreases |t|
  {
    var k := NextBreak(t, 0);
    if k == |t| then [t]
    else [t[..k]] + Sentences(t[AfterBreak(t, k)..])
  }

  /** Every break is a single space followed by something other than
      whitespace. */
  predicate SingleSpacedBreaks(t: string) {
    forall j {:trigger IsBreak(t, j)} :: 0 < j < |t| && IsBreak(t, j) ==> t[j] == ' ' && (j + 1 == |t| || !IsSpace(t[j + 1]))
  }

  /** `_shorten(text, maxSentences, maxChars)`. */
  function Shorten(text: string, maxSentences: nat, maxChars: nat): (r: string)
    ensures |r| <= maxChars + 3
    ensures |r| > maxChars ==> |r| >= 3 && r[|r| - 3..] == "..."
    ensures (forall i :: 0 <= i < |text| ==> IsSpace(text[i])) ==> r == ""
  {
    var t := Strip(text, IsSpace);
    if |t| == 0 then t
    else
      var parts := Sentences(t);
      var u := Strip(Join(parts[..Min(maxSentences, |parts|)]), IsSpace);
      if |u| > maxChars then TrimEnd(u[..maxChars], IsSpace) + "..." else u
  }

  function Min(a: nat, b: nat): nat {
    if a <= b then a else b
  }

  /** A piece of text contains no sentence break of its own. */
  predicate NoBreak(w: string) {
    forall j :: 0 <= j < |w| ==> !IsBreak(w, j)
  }

  /** No sentence contains a break: splitting went as far as it could. */
  lemma {:induction false} SentencesHaveNoBreak(t: string)
    ensures forall i :: 0 <= i < |Sentences(t)| ==> NoBreak(Sentences(t)[i])
    decreases |t|
  {
    var k := NextBreak(t, 0);
    if k < |t| {
      var rest := t[AfterBreak(t, k)..];
      SentencesHaveNoBreak(rest);
      PrefixNoBreak(t, k);
    } else {
      PrefixNoBreak(t, k);
      assert t[..k] == t;
    }
  }

  /** The text before the first break has no break. */
  lemma PrefixNoBreak(t: string, k: nat)
    requires k <= |t| && forall m :: 0 <= m < k ==> !IsBreak(t, m)
    ensures NoBreak(t[..k])
  {
    forall j | 0 <= j < k ensures !IsBreak(t[..k], j) {
      assert !IsBreak(t, j);
    }
  }

  /** When every break is a single space, joining the sentences with single
      spaces gives back the text. */
  lemma {:induction false} JoinSentences(t: string)
    requires SingleSpacedBreaks(t)
    ensures Join(Sentences(t)) == t
    decreases |t|
  {
    var k := NextBreak(t, 0);
    if k < |t| {
      BreakIsOneSpace(t, k);
      var rest := t[k + 1..];
      assert Sentences(t) == [t[..k]] + Sentences(rest);
      RestSingleSpaced(t, k + 1);
      JoinSentences(rest);
      JoinCons(t[..k], Sentences(rest));
      SplitAround(t, k);
    } else {
      assert Sentences(t) == [t];
    }
  }

  /** With single-spaced breaks, a break is one space and the next sentence
      starts right after it. */
  lemma BreakIsOneSpace(t: string, k: nat)
    requires SingleSpacedBreaks(t) && IsBreak(t, k)
    ensures t[k] == ' ' && AfterBreak(t, k) == k + 1
  {
    assert t[k..][0] == ' ';
    if k + 1 < |t| {
      assert t[k..][1] == t[k + 1];
    }
  }

  /** The text after a break keeps single-spaced breaks. */
  lemma RestSingleSpaced(t: string, e: nat)
    requires SingleSpacedBreaks(t) && e <= |t|
    ensures SingleSpacedBreaks(t[e..])
  {
    var rest := t[e..];
    forall j | 0 < j < |rest| && IsBreak(rest, j)
      ensures rest[j] == ' ' && (j + 1 == |rest| || !IsSpace(rest[j + 1]))
    {
      assert IsBreak(t, e + j);
    }
  }

  /** With single-spaced breaks, the first `n` sentences joined back
      together are the beginning of the text. */
  lemma {:induction false} JoinLeadingSentences(t: string, n: nat)
    requires SingleSpacedBreaks(t) && n <= |Sentences(t)|
    ensures IsPrefix(Join(Sentences(t)[..n]), t)
    decreases |t|, 1
  {
    var k := NextBreak(t, 0);
    if n == 0 {
      assert Sentences(t)[..0] == [];
    } else if k == |t| {
      assert Sentences(t)[..n] == [t];
    } else {
      JoinLeadingAfterBreak(t, k, n);
    }
  }

  lemma {:induction false} JoinLeadingAfterBreak(t: string, k: nat, n: nat)
    requires SingleSpacedBreaks(t) && k == NextBreak(t, 0) && k < |t|
    requires 0 < n <= |Sentences(t)|
    ensures IsPrefix(Join(Sentences(t)[..n]), t)
    decreases |t|, 0
  {
    BreakIsOneSpace(t, k);
    var rest := t[k + 1..];
    var ss := Sentences(rest);
    assert Sentences(t) == [t[..k]] + ss;
    assert Sentences(t)[..n] == [t[..k]] + ss[..n - 1];
    if n == 1 {
      assert [t[..k]] + ss[..0] == [t[..k]];
    } else {
      RestSingleSpaced(t, k + 1);
      JoinLeadingSentences(rest, n - 1);
      PrefixAfterSpace(t, k, ss[..n - 1]);
    }
  }

  /** Sentences joined after the space at `k` that begin what follows it
      extend `t[..k]` to a prefix of `t`. */
  lemma PrefixAfterSpace(t: string, k: nat, ws: seq<string>)
    requires k < |t| && t[k] == ' ' && |ws| > 0 && IsPrefix(Join(ws), t[k + 1..])
    ensures IsPrefix(Join([t[..k]] + ws), t)
  {
    JoinCons(t[..k], ws);
    var w := t[..k] + " " + Join(ws);
    assert forall i :: 0 <= i < |w| ==> w[i] == t[i];
  }

  /** Trimming the end of a prefix leaves a prefix. */
  lemma StripOfPrefix(u: string, t: string)
    requires IsPrefix(u, t) && (|t| == 0 || !IsSpace(t[0]))
    ensures IsPrefix(Strip(u, IsSpace), t)
  {
    if |u| > 0 {
      assert u[0] == t[0];
      assert LeadCount(u, IsSpace) == 0;
    }
  }

  /** A stripped text with single-spaced breaks is shortened to one of its
      own prefixes, or to a prefix of at most `maxChars` characters
      followed by "...". */
  lemma {:induction false} ShortenIsPrefix(t: string, maxSentences: nat, maxChars: nat)
    requires |t| > 0 ==> !IsSpace(t[0]) && !IsSpace(t[|t| - 1])
    requires SingleSpacedBreaks(t)
    ensures var r := Shorten(t, maxSentences, maxChars);
      || IsPrefix(r, t)
      || (|r| >= 3 && r[|r| - 3..] == "..." && |r| - 3 <= maxChars && IsPrefix(r[..|r| - 3], t))
  {
    StripClean(t, IsSpace);
    if |t| > 0 {
      var parts := Sentences(t);
      var n := Min(maxSentences, |parts|);
      JoinLeadingSentences(t, n);
      StripOfPrefix(Join(parts[..n]), t);
      CutPrefix(Strip(Join(parts[..n]), IsSpace), t, maxChars);
    }
  }

  /** With at most one sentence kept, as the chat handler asks for, any
      text is shortened to a prefix of the stripped text, or to a prefix of
      at most `maxChars` characters followed by "...". */
  lemma {:induction false} ShortenOneSentence(text: string, maxSentences: nat, maxChars: nat)
    requires maxSentences <= 1
    ensures var r := Shorten(text, maxSentences, maxChars);
      var t := Strip(text, IsSpace);
      || IsPrefix(r, t)
      || (|r| >= 3 && r[|r| - 3..] == "..." && |r| - 3 <= maxChars && IsPrefix(r[..|r| - 3], t))
  {
    var t := Strip(text, IsSpace);
    if |t| > 0 {
      var n := Min(maxSentences, |Sentences(t)|);
      FirstSentencePrefix(t, n);
      StripOfPrefix(Join(Sentences(t)[..n]), t);
      CutPrefix(Strip(Join(Sentences(t)[..n]), IsSpace), t, maxChars);
    }
  }

  /** No sentence, or the first one, is the beginning of the text. */
  lemma FirstSentencePrefix(t: string, n: nat)
    requires n <= 1 && n <= |Sentences(t)|
    ensures IsPrefix(Join(Sentences(t)[..n]), t)
  {
    var parts := Sentences(t);
    if n == 0 {
      assert parts[..0] == [];
    } else {
      assert parts[..1] == [parts[0]];
      assert parts[0] == t[..NextBreak(t, 0)];
    }
  }

  /** The character budget applied to a prefix of `t` gives a prefix of `t`,
      or a prefix of at most `maxChars` characters followed by "...". */
  lemma CutPrefix(u: string, t: string, maxChars: nat)
    requires IsPrefix(u, t)
    ensures var r := if |u| > maxChars then TrimEnd(u[..maxChars], IsSpace) + "..." else u;
      || IsPrefix(r, t)
      || (|r| >= 3 && r[|r| - 3..] == "..." && |r| - 3 <= maxChars && IsPrefix(r[..|r| - 3], t))
  {
    if |u| > maxChars {
      var p := TrimEnd(u[..maxChars], IsSpace);
      assert IsPrefix(p, t);
      assert (p + "...")[..|p|] == p;
    }
  }

  /** A stripped text with single-spaced breaks that is within both budgets
      comes back unchanged. */
  lemma {:induction false} ShortenWithinBudget(t: string, maxSentences: nat, maxChars: nat)
    requires |t| > 0 ==> !IsSpace(t[0]) && !IsSpace(t[|t| - 1])
    requires SingleSpacedBreaks(t)
    requires |Sentences(t)| <= maxSentences && |t| <= maxChars
    ensures Shorten(t, maxSentences, maxChars) == t
  {
    StripClean(t, IsSpace);
    if |t| > 0 {
      JoinSentences(t);
      assert Sentences(t)[..|Sentences(t)|] == Sentences(t);
      StripClean(t, IsSpace);
    }
  }

  /** A text without breaks is one sentence. */
  lemma SentencesOfOne(t: string)
    requires NoBreak(t)
    ensures Sentences(t) == [t]
    ensures SingleSpacedBreaks(t)
  {
    assert NextBreak(t, 0) == |t|;
  }
}

=== FILE: text.dfy ===
/** Sequential string functions shared by the normaliser, the classifiers
    and the response cleaner: prefix/suffix trimming (`str.strip` and
    friends), filtering, maximal runs of a character class (the tokens
    that `str.split()` or `\w+` produce), space-joining (`" ".join`) and
    substring search (`in` on strings).
 */
module Text {

  /** The complement of a character class. */
  function Not(p: char -> bool): char -> bool {
    c => !p(c)
  }

  /** Length of the longest prefix of `s` whose characters all satisfy `p`. */
  function LeadCount(s: string, p: char -> bool): (n: nat)
    ensures n <= |s|
    ensures forall i :: 0 <= i < n ==> p(s[i])
    ensures n < |s| ==> !p(s[n])
    decreases |s|
  {
    if |s| > 0 && p(s[0]) then
      var n := LeadCount(s[1..], p);
      assert forall i :: 1 <= i < n + 1 ==> s[i] == s[1..][i - 1];
      n + 1
    else 0
  }

  /** Length of the longest suffix of `s` whose characters all satisfy `p`. */
  function TrailCount(s: string, p: char -> bool): (n: nat)
    ensures n <= |s|
    ensures forall i :: |s| - n <= i < |s| ==> p(s[i])
    ensures n < |s| ==> !p(s[|s| - n - 1])
    decreases |s|
  {
    if |s| > 0 && p(s[|s| - 1]) then
      var n := TrailCount(s[..|s| - 1], p);
      assert forall i :: |s| - 1 - n <= i < |s| - 1 ==> s[i] == s[..|s| - 1][i];
      n + 1
    else 0
  }

  /** `s` without its longest `p`-prefix (`str.lstrip(chars)`). */
  function DropWhile(s: string, p: char -> bool): string {
    s[LeadCount(s, p)..]
  }

  /** The longest `p`-prefix of `s`. */
  function TakeWhile(s: string, p: char -> bool): string {
    s[..LeadCount(s, p)]
  }

  /** `s` without its longest `p`-suffix (`str.rstrip(chars)`). */
  function TrimEnd(s: string, p: char -> bool): string {
    s[..|s| - TrailCount(s, p)]
  }

  /** `s.strip(chars)`: both ends trimmed of characters satisfying `p`.
      The result is the slice of `s` between a maximal `p`-prefix and a
      maximal `p`-suffix, and neither of its ends satisfies `p`. */
  function Strip(s: string, p: char -> bool): (r: string)
    ensures var d := LeadCount(s, p);
      && d + |r| <= |s|
      && r == s[d..d + |r|]
      && (forall i :: d + |r| <= i < |s| ==> p(s[i]))
    ensures |r| > 0 ==> !p(r[0]) && !p(r[|r| - 1])
    ensures (forall i :: 0 <= i < |s| ==> p(s[i])) <==> r == []
  {
    var d := LeadCount(s, p);
    var r := TrimEnd(s[d..], p);
    StripSlice(s, p, d);
    StripEnds(s[d..], p);
    StripEmpty(s, p, d);
    r
  }

  lemma StripSlice(s: string, p: char -> bool, d: nat)
    requires d == LeadCount(s, p)
    ensures var r := TrimEnd(s[d..], p);
      && d + |r| <= |s|
      && r == s[d..d + |r|]
      && (forall i :: d + |r| <= i < |s| ==> p(s[i]))
  {
    var t := s[d..];
    forall i | d + |TrimEnd(t, p)| <= i < |s| ensures p(s[i]) {
      assert s[i] == t[i - d];
    }
  }

  lemma StripEnds(t: string, p: char -> bool)
    requires |t| == 0 || !p(t[0])
    ensures var r := TrimEnd(t, p);
      |r| > 0 ==> !p(r[0]) && !p(r[|r| - 1])
  {
  }

  lemma StripEmpty(s: string, p: char -> bool, d: nat)
    requires d == LeadCount(s, p)
    ensures (forall i :: 0 <= i < |s| ==> p(s[i])) <==> TrimEnd(s[d..], p) == []
  {
    var t := s[d..];
    if TrimEnd(t, p) == [] {
      assert |t| == 0;
    }
  }

  /** The characters of `s` that satisfy `p`, in order. */
  function Filter(s: string, p: char -> bool): (r: string)
    ensures forall i :: 0 <= i < |r| ==> p(r[i])
    ensures multiset(r) <= multiset(s)
    ensures IsSubseq(r, s)
    ensures (forall i :: 0 <= i < |s| ==> p(s[i])) ==> r == s
    decreases |s|
  {
    if |s| == 0 then ""
    else if p(s[0]) then
      assert s == [s[0]] + s[1..];
      var t := Filter(s[1..], p);
      SubseqKeepHead(t, s);
      [s[0]] + t
    else
      assert s == [s[0]] + s[1..];
      Filter(s[1..], p)
  }

  /** Filtering keeps every occurrence of a `p`-character and none of the
      others. */
  lemma FilterCount(s: string, p: char -> bool)
    ensures forall c :: multiset(Filter(s, p))[c] == if p(c) then multiset(s)[c] else 0
  {
    forall c ensures multiset(Filter(s, p))[c] == if p(c) then multiset(s)[c] else 0 {
      FilterCountOf(s, p, c);
    }
  }

  lemma {:induction false} FilterCountOf(s: string, p: char -> bool, c: char)
    ensures multiset(Filter(s, p))[c] == if p(c) then multiset(s)[c] else 0
    decreases |s|
  {
    if |s| > 0 {
      FilterCountOf(s[1..], p, c);
      assert s == [s[0]] + s[1..];
      assert multiset(s) == multiset{s[0]} + multiset(s[1..]);
      if p(s[0]) {
        var t := Filter(s[1..], p);
        assert Filter(s, p) == [s[0]] + t;
        assert multiset([s[0]] + t) == multiset{s[0]} + multiset(t);
      }
    }
  }

  // ---------------------------------------------------------------------
  // Deleting characters

  /** `r` is `s` with some of its characters deleted and the others kept in
      order: each character of `s`, from the front, is either kept as the
      next character of `r` or dropped. */
  predicate IsSubseq(r: string, s: string)
    decreases |s|
  {
    if |s| == 0 then |r| == 0
    else (|r| > 0 && r[0] == s[0] && IsSubseq(r[1..], s[1..])) || IsSubseq(r, s[1..])
  }

  /** Keeping the first character of `s`. */
  lemma SubseqKeepHead(t: string, s: string)
    requires |s| > 0 && IsSubseq(t, s[1..])
    ensures IsSubseq([s[0]] + t, s)
  {
    assert ([s[0]] + t)[1..] == t;
  }

  /** The empty string is left once everything is deleted. */
  lemma {:induction false} SubseqEmpty(s: string)
    ensures IsSubseq("", s)
    decreases |s|
  {
    if |s| > 0 {
      SubseqEmpty(s[1..]);
    }
  }

  /** Deleting a prefix. */
  lemma {:induction false} SubseqOfSuffix(r: string, s: string, k: nat)
    requires k <= |s| && IsSubseq(r, s[k..])
    ensures IsSubseq(r, s)
    decreases k
  {
    if k > 0 {
      assert s[1..][k - 1..] == s[k..];
      SubseqOfSuffix(r, s[1..], k - 1);
    }
  }

  /** Deleting a suffix. */
  lemma {:induction false} PrefixIsSubseq(s: string, j: nat)
    requires j <= |s|
    ensures IsSubseq(s[..j], s)
    decreases j
  {
    if j == 0 {
      SubseqEmpty(s);
    } else {
      PrefixIsSubseq(s[1..], j - 1);
      assert s[..j][1..] == s[1..][..j - 1];
    }
  }

  /** A slice is what is left after deleting a prefix and a suffix. */
  lemma SliceIsSubseq(s: string, i: nat, j: nat)
    requires i <= j <= |s|
    ensures IsSubseq(s[i..j], s)
  {
    PrefixIsSubseq(s[i..], j - i);
    assert s[i..][..j - i] == s[i..j];
    SubseqOfSuffix(s[i..j], s, i);
  }

  /** Two rounds of deletion are one round of deletion. */
  lemma {:induction false} SubseqTrans(a: string, b: string, c: string)
    requires IsSubseq(a, b) && IsSubseq(b, c)
    ensures IsSubseq(a, c)
    decreases |c|
  {
    if |c| > 0 {
      if |b| > 0 && b[0] == c[0] && IsSubseq(b[1..], c[1..]) {
        if |a| > 0 && a[0] == b[0] && IsSubseq(a[1..], b[1..]) {
          SubseqTrans(a[1..], b[1..], c[1..]);
        } else {
          SubseqTrans(a, b[1..], c[1..]);
        }
      } else {
        SubseqTrans(a, b, c[1..]);
      }
    }
  }

  /** Stripping only deletes characters. */
  lemma StripSubseq(s: string, p: char -> bool)
    ensures IsSubseq(Strip(s, p), s)
  {
    var d := LeadCount(s, p);
    SliceIsSubseq(s, d, d + |Strip(s, p)|);
  }

  /** `w` is a non-empty string of `p`-characters. */
  ghost predicate IsRun(w: string, p: char -> bool) {
    |w| > 0 && forall i :: 0 <= i < |w| ==> p(w[i])
  }

  /** Every element of `ws` is a non-empty string of `p`-characters. */
  ghost predicate IsRunList(ws: seq<string>, p: char -> bool) {
    forall k :: 0 <= k < |ws| ==> IsRun(ws[k], p)
  }

  /** The maximal runs of `p`-characters of `s`, left to right: `str.split()`
      when `p` is "not whitespace", the matches of `\w+` when `p` is `\w`. */
  function Runs(s: string, p: char -> bool): seq<string>
    decreases |s|
  {
    var t := DropWhile(s, Not(p));
    if |t| == 0 then []
    else [TakeWhile(t, p)] + Runs(DropWhile(t, p), p)
  }

  /** `" ".join(ws)` */
  function Join(ws: seq<string>): string {
    if |ws| == 0 then ""
    else if |ws| == 1 then ws[0]
    else ws[0] + " " + Join(ws[1..])
  }

  /** `pat` occurs in `s` starting at index `i`. */
  predicate OccursAt(s: string, i: int, pat: string) {
    0 <= i && i + |pat| <= |s| && s[i..i + |pat|] == pat
  }

  /** `pat in s` */
  predicate Contains(s: string, pat: string) {
    exists i | 0 <= i <= |s| - |pat| :: OccursAt(s, i, pat)
  }

  /** `u` is a prefix of `v` */
  predicate IsPrefix(u: string, v: string) {
    |u| <= |v| && v[..|u|] == u
  }

  /** A prefix agrees with the text at each of its positions. */
  lemma PrefixAgrees(u: string, v: string, i: int)
    requires 0 <= i < |u|
    ensures IsPrefix(u, v) ==> i < |v| && u[i] == v[i]
  {
    if IsPrefix(u, v) {
      assert v[..|u|][i] == v[i];
    }
  }

  /** An occurrence agrees with the text at each of its positions. */
  lemma OccursAtAgrees(s: string, i: int, pat: string, m: int)
    requires 0 <= m < |pat|
    ensures OccursAt(s, i, pat) ==> 0 <= i + m < |s| && s[i + m] == pat[m]
  {
    if OccursAt(s, i, pat) {
      assert s[i..i + |pat|][m] == s[i + m];
    }
  }

  // ---------------------------------------------------------------------
  // Scanning laws

  lemma {:induction false} LeadCountConcat(a: string, b: string, p: char -> bool)
    ensures LeadCount(a + b, p) == if LeadCount(a, p) == |a| then |a| + LeadCount(b, p) else LeadCount(a, p)
    decreases |a|
  {
    if |a| > 0 && p(a[0]) {
      assert (a + b)[1..] == a[1..] + b;
      LeadCountConcat(a[1..], b, p);
    } else if |a| == 0 {
      assert a + b == b;
    }
  }

  /** Every token `Runs` produces is a non-empty run of `p`-characters of
      `s`; so whatever `q` says of every `p`-character of `s`, it says of
      every character of every token. */
  lemma {:induction false} RunsAreRuns(s: string, p: char -> bool, q: char -> bool)
    requires forall i :: 0 <= i < |s| && p(s[i]) ==> q(s[i])
    ensures IsRunList(Runs(s, p), p)
    ensures IsRunList(Runs(s, p), q)
    decreases |s|
  {
    var t := DropWhile(s, Not(p));
    if |t| > 0 {
      var w := TakeWhile(t, p);
      var d := DropWhile(t, p);
      SuffixKeeps(s, LeadCount(s, Not(p)), p, q);
      SuffixKeeps(t, LeadCount(t, p), p, q);
      RunsAreRuns(d, p, q);
      assert forall i :: 0 <= i < |w| ==> w[i] == t[i];
      ConsRunList(w, Runs(d, p), p);
      ConsRunList(w, Runs(d, p), q);
    }
  }

  lemma SuffixKeeps(s: string, n: nat, p: char -> bool, q: char -> bool)
    requires n <= |s|
    requires forall i :: 0 <= i < |s| && p(s[i]) ==> q(s[i])
    ensures forall i :: 0 <= i < |s[n..]| && p(s[n..][i]) ==> q(s[n..][i])
  {
    assert forall i :: 0 <= i < |s[n..]| ==> s[n..][i] == s[i + n];
  }

  lemma ConsRunList(w: string, ws: seq<string>, p: char -> bool)
    requires IsRun(w, p) && IsRunList(ws, p)
    ensures IsRunList([w] + ws, p)
  {
    forall k | 0 <= k < |[w] + ws| ensures IsRun(([w] + ws)[k], p) {
      if k > 0 {
        assert ([w] + ws)[k] == ws[k - 1];
      }
    }
  }

  /** A text has no runs exactly when it has no character of the class. */
  lemma RunsEmpty(s: string, p: char -> bool)
    ensures Runs(s, p) == [] <==> forall i :: 0 <= i < |s| ==> !p(s[i])
  {
    var n := LeadCount(s, Not(p));
    if n < |s| {
      assert !Not(p)(s[n]);
    } else {
      assert forall i :: 0 <= i < |s| ==> Not(p)(s[i]);
    }
  }


  /** Characters outside the class in front of the text do not change its runs. */
  lemma RunsSkip(a: string, b: string, p: char -> bool)
    requires forall i :: 0 <= i < |a| ==> !p(a[i])
    ensures Runs(a + b, p) == Runs(b, p)
  {
    LeadCountConcat(a, b, Not(p));
    assert (a + b)[|a|..] == b;
    assert DropWhile(a + b, Not(p)) == DropWhile(b, Not(p));
  }

  /** A whole run at the front of the text is its first token. */
  lemma RunsWord(w: string, b: string, p: char -> bool)
    requires IsRun(w, p)
    requires |b| == 0 || !p(b[0])
    ensures Runs(w + b, p) == [w] + Runs(b, p)
  {
    assert LeadCount(w + b, Not(p)) == 0;
    LeadCountConcat(w, b, p);
    assert (w + b)[..|w|] == w;
    assert (w + b)[|w|..] == b;
  }

  /** Characters outside the class at the end of the text do not change its runs. */
  lemma {:induction false} RunsAppendSkip(a: string, b: string, p: char -> bool)
    requires forall i :: 0 <= i < |b| ==> !p(b[i])
    ensures Runs(a + b, p) == Runs(a, p)
    decreases |a|, 1
  {
    var n := LeadCount(a, Not(p));
    var t := a[n..];
    RunsAfterSkip(a, b, p);
    if |t| == 0 {
      RunsEmpty(b, p);
      RunsEmpty(t, p);
      assert t + b == b;
    } else {
      RunsAppendSkipWord(t, b, p);
    }
  }

  lemma RunsAfterSkip(a: string, b: string, p: char -> bool)
    ensures var t := a[LeadCount(a, Not(p))..];
      Runs(a + b, p) == Runs(t + b, p) && Runs(a, p) == Runs(t, p)
  {
    var n := LeadCount(a, Not(p));
    var u, t := a[..n], a[n..];
    assert a == u + t;
    assert a + b == u + (t + b);
    RunsSkip(u, t + b, p);
    RunsSkip(u, t, p);
  }

  lemma {:induction false} RunsAppendSkipWord(t: string, b: string, p: char -> bool)
    requires forall i :: 0 <= i < |b| ==> !p(b[i])
    requires |t| > 0 && p(t[0])
    ensures Runs(t + b, p) == Runs(t, p)
    decreases |t|, 0
  {
    var m := LeadCount(t, p);
    var w, rest := t[..m], t[m..];
    assert t == w + rest;
    assert t + b == w + (rest + b);
    RunsWord(w, rest + b, p);
    RunsWord(w, rest, p);
    RunsAppendSkip(rest, b, p);
  }



  /** Trimming characters outside the class does not change the runs. */
  lemma RunsOfStrip(s: string, p: char -> bool, q: char -> bool)
    requires forall c :: p(c) ==> !q(c)
    ensures Runs(Strip(s, p), q) == Runs(s, q)
  {
    var d := LeadCount(s, p);
    var r := Strip(s, p);
    var tail := s[d + |r|..];
    assert s == s[..d] + (r + tail);
    forall i | 0 <= i < d ensures !q(s[..d][i]) {
      assert p(s[i]);
    }
    forall i | 0 <= i < |tail| ensures !q(tail[i]) {
      assert p(s[d + |r| + i]);
    }
    RunsBetween(s[..d], r, tail, q);
  }

  /** Runs surrounded by characters outside the class are the runs of the
      middle part. */
  lemma RunsBetween(u: string, r: string, v: string, q: char -> bool)
    requires forall i :: 0 <= i < |u| ==> !q(u[i])
    requires forall i :: 0 <= i < |v| ==> !q(v[i])
    ensures Runs(u + (r + v), q) == Runs(r, q)
  {
    RunsSkip(u, r + v, q);
    RunsAppendSkip(r, v, q);
  }

  // ---------------------------------------------------------------------
  // Splitting a joined list gives the list back

  lemma TailIsRunList(ws: seq<string>, p: char -> bool)
    requires IsRunList(ws, p) && |ws| > 0
    ensures IsRunList(ws[1..], p)
    ensures IsRun(ws[0], p)
  {
    forall k | 0 <= k < |ws[1..]| ensures IsRun(ws[1..][k], p) {
      assert ws[1..][k] == ws[k + 1];
    }
  }

  /** `str.split()` (or `\w+`) undoes `" ".join` on a list of non-empty
      tokens that the separator cannot belong to. */
  lemma {:induction false} RunsOfJoin(ws: seq<string>, p: char -> bool)
    requires IsRunList(ws, p)
    requires !p(' ')
    ensures Runs(Join(ws), p) == ws
    decreases |ws|
  {
    if |ws| == 1 {
      TailIsRunList(ws, p);
      RunsWord(ws[0], "", p);
      assert ws[0] + "" == ws[0];
    } else if |ws| > 1 {
      TailIsRunList(ws, p);
      var rest := Join(ws[1..]);
      RunsOfJoin(ws[1..], p);
      assert Join(ws) == ws[0] + (" " + rest);
      RunsWord(ws[0], " " + rest, p);
      RunsSkip(" ", rest, p);
      assert ws == [ws[0]] + ws[1..];
    }
  }

  /** Every character of a joined list is a separator or belongs to a token;
      the joined text neither starts nor ends with the separator and never
      holds two separators in a row. */
  lemma {:induction false} JoinChars(ws: seq<string>, p: char -> bool)
    requires IsRunList(ws, p)
    ensures forall i :: 0 <= i < |Join(ws)| ==> Join(ws)[i] == ' ' || p(Join(ws)[i])
    ensures |Join(ws)| > 0 ==> p(Join(ws)[0]) && p(Join(ws)[|Join(ws)| - 1])
    ensures forall i :: 0 <= i < |Join(ws)| - 1 && Join(ws)[i] == ' ' ==> p(Join(ws)[i + 1])
    ensures |Join(ws)| == 0 <==> |ws| == 0
    decreases |ws|
  {
    if |ws| == 1 {
      TailIsRunList(ws, p);
    } else if |ws| >= 2 {
      TailIsRunList(ws, p);
      JoinChars(ws[1..], p);
      var j := Join(ws);
      var rest := Join(ws[1..]);
      assert j == ws[0] + " " + rest;
      forall i | 0 <= i < |j| ensures j[i] == ' ' || p(j[i]) {
        if i < |ws[0]| {
          assert j[i] == ws[0][i];
        } else if i > |ws[0]| {
          assert j[i] == rest[i - |ws[0]| - 1];
        }
      }
      forall i | 0 <= i < |j| - 1 && j[i] == ' ' ensures p(j[i + 1]) {
        if i < |ws[0]| {
          assert j[i] == ws[0][i];
          if i + 1 < |ws[0]| {
            assert j[i + 1] == ws[0][i + 1];
          }
        } else if i == |ws[0]| {
          assert j[i + 1] == rest[0];
        } else {
          assert j[i] == rest[i - |ws[0]| - 1];
          assert j[i + 1] == rest[i - |ws[0]|];
        }
      }
    }
  }

  // ---------------------------------------------------------------------
  // Scans over texts that agree on a class

  /** Two texts of the same length whose characters agree on `p` at every
      position have the same `p`-prefix and `p`-suffix lengths. */
  lemma {:induction false} LeadCountSame(s: string, t: string, p: char -> bool)
    requires |s| == |t|
    requires forall i :: 0 <= i < |s| ==> (p(s[i]) <==> p(t[i]))
    ensures LeadCount(s, p) == LeadCount(t, p)
  {
    var n := LeadCount(s, p);
    var m := LeadCount(t, p);
    assert n == m;
  }

  lemma {:induction false} TrailCountSame(s: string, t: string, p: char -> bool)
    requires |s| == |t|
    requires forall i :: 0 <= i < |s| ==> (p(s[i]) <==> p(t[i]))
    ensures TrailCount(s, p) == TrailCount(t, p)
  {
    var n := TrailCount(s, p);
    var m := TrailCount(t, p);
    assert n == m;
  }

  // ---------------------------------------------------------------------
  // Tokens of a concatenation

  /** Splitting a text where no run straddles the cut splits its runs. */
  lemma {:induction false} RunsConcat(a: string, b: string, p: char -> bool)
    requires |a| == 0 || |b| == 0 || !p(a[|a| - 1]) || !p(b[0])
    ensures Runs(a + b, p) == Runs(a, p) + Runs(b, p)
    decreases |a|
  {
    if LeadCount(a, Not(p)) == |a| {
      RunsSkip(a, b, p);
      RunsEmpty(a, p);
    } else {
      var u, w, r := FirstRun(a, p);
      if |r| == 0 {
        RunsConcatLastRun(u, w, r, b, p);
      } else {
        assert a[|a| - 1] == r[|r| - 1];
        RunsConcat(r, b, p);
        RunsConcatStep(u, w, r, b, p);
      }
    }
  }

  lemma RunsConcatLastRun(u: string, w: string, r: string, b: string, p: char -> bool)
    requires forall i :: 0 <= i < |u| ==> !p(u[i])
    requires IsRun(w, p) && |r| == 0
    requires |b| == 0 || !p(b[0])
    requires Runs(u + w + r, p) == [w] + Runs(r, p)
    ensures Runs(u + w + r + b, p) == Runs(u + w + r, p) + Runs(b, p)
  {
    Regroup(u, w, r, b);
    RunsSkipRun(u, w, b, p);
    RunsEmpty(r, p);
  }

  lemma RunsConcatStep(u: string, w: string, r: string, b: string, p: char -> bool)
    requires forall i :: 0 <= i < |u| ==> !p(u[i])
    requires IsRun(w, p) && |r| > 0 && !p(r[0])
    requires Runs(u + w + r, p) == [w] + Runs(r, p)
    requires Runs(r + b, p) == Runs(r, p) + Runs(b, p)
    ensures Runs(u + w + r + b, p) == Runs(u + w + r, p) + Runs(b, p)
  {
    Regroup(u, w, r, b);
    assert (r + b)[0] == r[0];
    RunsSkipRun(u, w, r + b, p);
    ConsAssoc(w, Runs(r, p), Runs(b, p));
  }

  lemma ConsAssoc<T>(x: T, a: seq<T>, b: seq<T>)
    ensures [x] + (a + b) == ([x] + a) + b
  {
  }

  lemma Regroup(u: string, w: string, r: string, b: string)
    ensures (u + w + r) + b == u + w + (r + b)
    ensures |r| == 0 ==> (u + w + r) + b == u + w + b
  {
  }

  /** A text that holds a class character splits into a non-class prefix,
      its first token, and a rest that starts outside the class. */
  lemma FirstRun(a: string, p: char -> bool) returns (u: string, w: string, r: string)
    requires LeadCount(a, Not(p)) < |a|
    ensures a == u + w + r
    ensures forall i :: 0 <= i < |u| ==> !p(u[i])
    ensures IsRun(w, p)
    ensures |r| == 0 || !p(r[0])
    ensures Runs(a, p) == [w] + Runs(r, p)
  {
    var n := LeadCount(a, Not(p));
    var t := a[n..];
    var m := LeadCount(t, p);
    u, w, r := a[..n], t[..m], t[m..];
    SplitRun(a, n, m);
    assert !Not(p)(t[0]);
    assert forall i :: 0 <= i < m ==> w[i] == t[i];
    assert forall i :: 0 <= i < n ==> u[i] == a[i];
    if |r| > 0 {
      assert r[0] == t[m];
    }
  }

  lemma SplitRun(a: string, n: nat, m: nat)
    requires n <= |a| && m <= |a[n..]|
    ensures a == a[..n] + a[n..][..m] + a[n..][m..]
  {
  }

  /** Runs of a non-class prefix, a run, and a rest that starts outside the
      class. */
  lemma RunsSkipRun(u: string, w: string, r: string, p: char -> bool)
    requires forall i :: 0 <= i < |u| ==> !p(u[i])
    requires IsRun(w, p)
    requires |r| == 0 || !p(r[0])
    ensures Runs(u + w + r, p) == [w] + Runs(r, p)
  {
    assert u + w + r == u + (w + r);
    RunsSkip(u, w + r, p);
    RunsWord(w, r, p);
  }

  /** A token is a run of the text that cannot be extended on either side. */
  ghost predicate IsolatedIn(x: string, u: string, w: string, v: string, p: char -> bool) {
    && x == u + w + v
    && IsRun(w, p)
    && (|u| == 0 || !p(u[|u| - 1]))
    && (|v| == 0 || !p(v[0]))
  }

  /** The tokens `Runs` produces are exactly the maximal runs of the text. */
  lemma RunsMembers(x: string, p: char -> bool, w: string)
    ensures w in Runs(x, p) <==> exists u, v :: IsolatedIn(x, u, w, v, p)
  {
    if w in Runs(x, p) {
      var u, v := RunsMemberSplit(x, p, w);
    }
    if exists u, v :: IsolatedIn(x, u, w, v, p) {
      var u, v :| IsolatedIn(x, u, w, v, p);
      RunsOfIsolated(u, w, v, p);
      assert Runs(x, p)[|Runs(u, p)|] == w;
    }
  }

  lemma RunsOfIsolated(u: string, w: string, v: string, p: char -> bool)
    requires IsolatedIn(u + w + v, u, w, v, p)
    ensures Runs(u + w + v, p) == Runs(u, p) + [w] + Runs(v, p)
  {
    RunsConcat(u, w, p);
    RunsConcat(u + w, v, p);
    RunsSingle(w, p);
  }

  lemma RunsSingle(w: string, p: char -> bool)
    requires IsRun(w, p)
    ensures Runs(w, p) == [w]
  {
    RunsWord(w, "", p);
    assert w + "" == w;
    RunsEmpty("", p);
  }

  lemma {:induction false} RunsMemberSplit(x: string, p: char -> bool, w: string) returns (u: string, v: string)
    requires w in Runs(x, p)
    ensures IsolatedIn(x, u, w, v, p)
    decreases |x|
  {
    RunsEmpty(x, p);
    var u0, w0, r := FirstRun(x, p);
    if w == w0 {
      u, v := u0, r;
    } else {
      var u', v' := RunsMemberSplit(r, p, w);
      u, v := u0 + w0 + u', v';
      Regroup4(u0 + w0, u', w, v');
      assert u[|u| - 1] == u'[|u'| - 1];
    }
  }

  lemma Regroup4(a: string, b: string, c: string, d: string)
    ensures a + (b + c + d) == (a + b) + c + d
  {
  }

  /** A text is what comes before position `k`, the character there, and
      what follows. */
  lemma SplitAround(t: string, k: nat)
    requires k < |t|
    ensures t == t[..k] + [t[k]] + t[k + 1..]
  {
  }

  /** Joining a list with a head: the head, one space, the joined tail. */
  lemma JoinCons(w: string, ws: seq<string>)
    requires |ws| > 0
    ensures Join([w] + ws) == w + " " + Join(ws)
  {
    assert ([w] + ws)[1..] == ws;
  }

  /** A leading `p`-character makes no difference to stripping. */
  lemma StripLeading(c: char, z: string, p: char -> bool)
    requires p(c)
    ensures Strip([c] + z, p) == Strip(z, p)
  {
    LeadCountConcat([c], z, p);
    assert ([c] + z)[1..] == z;
  }

  lemma SuffixMultiset(s: string, k: nat)
    requires k <= |s|
    ensures multiset(s[k..]) <= multiset(s)
  {
    assert s == s[..k] + s[k..];
  }

  lemma SliceMultiset(s: string, i: nat, j: nat)
    requires i <= j <= |s|
    ensures multiset(s[i..j]) <= multiset(s)
  {
    assert s == s[..i] + s[i..j] + s[j..];
  }

  lemma StripMultiset(s: string, p: char -> bool)
    ensures multiset(Strip(s, p)) <= multiset(s)
  {
    var d := LeadCount(s, p);
    SliceMultiset(s, d, d + |Strip(s, p)|);
  }

  /** A string of `p`-characters holds no character outside `p`. */
  lemma CountOutsideZero(t: string, p: char -> bool, c: char)
    requires forall i :: 0 <= i < |t| ==> p(t[i])
    requires !p(c)
    ensures multiset(t)[c] == 0
  {
    forall i | 0 <= i < |t| ensures t[i] != c {
    }
    assert c !in t;
  }

  /** Cutting `p`-characters off both ends keeps every other character. */
  lemma SliceCount(s: string, p: char -> bool, i: nat, j: nat, c: char)
    requires i <= j <= |s| && !p(c)
    requires forall k :: 0 <= k < i ==> p(s[k])
    requires forall k :: j <= k < |s| ==> p(s[k])
    ensures multiset(s[i..j])[c] == multiset(s)[c]
  {
    assert s == s[..i] + s[i..j] + s[j..];
    CountOutsideZero(s[..i], p, c);
    CountOutsideZero(s[j..], p, c);
  }

  /** Keeping the first character of `s` in front of `t` adds to the count
      of `c` exactly what that character adds to `s`. */
  lemma HeadCount(s: string, t: string, c: char)
    requires |s| > 0
    ensures multiset([s[0]] + t)[c] + multiset(s[1..])[c] == multiset(s)[c] + multiset(t)[c]
  {
    assert s == [s[0]] + s[1..];
  }

  /** Stripping keeps every character that does not satisfy `p`. */
  lemma StripCount(s: string, p: char -> bool, c: char)
    requires !p(c)
    ensures multiset(Strip(s, p))[c] == multiset(s)[c]
  {
    var d := LeadCount(s, p);
    SliceCount(s, p, d, d + |Strip(s, p)|, c);
  }

  /** `lstrip` keeps every character that does not satisfy `p`. */
  lemma DropWhileCount(s: string, p: char -> bool, c: char)
    requires !p(c)
    ensures multiset(DropWhile(s, p))[c] == multiset(s)[c]
  {
    assert s[LeadCount(s, p)..|s|] == DropWhile(s, p);
    SliceCount(s, p, LeadCount(s, p), |s|, c);
  }

  /** Stripping a string whose ends already fail `p` changes nothing. */
  lemma StripClean(s: string, p: char -> bool)
    requires |s| == 0 || (!p(s[0]) && !p(s[|s| - 1]))
    ensures Strip(s, p) == s
  {
  }

  /** A property every character of `s` has survives stripping. */
  lemma StripKeeps(s: string, p: char -> bool, q: char -> bool)
    requires forall i :: 0 <= i < |s| ==> q(s[i])
    ensures forall i :: 0 <= i < |Strip(s, p)| ==> q(Strip(s, p)[i])
  {
    var d := LeadCount(s, p);
    var r := Strip(s, p);
    assert forall i :: 0 <= i < |r| ==> r[i] == s[d + i];
  }
}
